=== FILE: README.md ===
# mursten-blocks in Dafny

A functional model of the sequential core of mursten-blocks, a set of
building blocks for applications on the mursten game-loop framework. It
covers seven components:

- **Event transport** (`Transport`, `Events`). A mailbox owns a FIFO
  channel. An address is a cloneable handle that sends into that channel.
  An address book is an ordered list of subscribers that receives a copy of
  every event. The simple event receiver drains its mailbox once per host
  tick and passes each event to its handler. The model keeps all live
  channels in one `World`: a map from mailbox id to the queued events.
- **Property reflection** (`Reflection`). A `Properties` snapshot holds named,
  typed bindings to live fields. `Value` is the closed union the protocol
  exchanges. `add` is last-wins. A conversion to the wrong variant is fatal.
  The live fields form a store that maps a location to a typed field.
- **Remote property console** (`Literals`, `Repl`). Each console line is split
  into words and dispatched as `set`, `get`, `exit` or `exit!`. A `set`
  value is parsed as bool, then f32, then i32. The client reacts to a
  response, a timeout or a disconnection. Once per tick, `Server::update`
  answers every queued request against one snapshot.
- **MIDI decoding** (`Midi`). `MidiMessage::from` decodes the Channel Voice
  messages and the System Real-Time Start and Stop messages of the MIDI 1.0
  Detailed Specification. An encoder is defined as its inverse.
- **Simulation clock** (`Time`). A clock is advanced by ticks. The clock
  updater makes one tick per host iteration from the wall clock, whose
  reading is a parameter.
- **Geometry structure** (`Geometry`). Vertices, triangles and meshes are
  recoloured and transformed element by element. A matrix is known only
  through the map it applies to points.
- **Terminal renderer plumbing** (`CursiveRenderer`). The renderer's context
  owns a mailbox and an address book. Every event its mailbox receives is
  forwarded to all subscribers, and the view update is gated by
  `need_to_update`.

Panics that user input can reach are modelled as `None` results. This covers
a mismatched `Value` conversion and a `set` of the wrong type. The other panics
are preconditions. Sending to a dropped mailbox is a programming error. A
wall-clock reading earlier than the previous one can happen without one,
since the system clock is not monotonic and may be set back; the source
unwraps the difference and panics, and the requires of `Time.Add`,
`Time.UpdaterStep` and `Time.Drive` exclude that case.

Three behaviours of the code are easy to miss:

- The server answers an `Exit` with **two** `ExitSuccessful` responses. One
  comes from the arm itself (`src/repl.rs:187`) and one from the common send
  (`src/repl.rs:192`), so one response stays queued after an `exit`. The
  model follows the code.
- Every i32 literal is also an f32 literal, and `parse_value` tries f32
  before i32. So `parse_value` never yields `Integer`, and no console line can
  set an i32 property: the request is sent, and the server's conversion
  panics.
- The channel nibble of a MIDI status byte is ignored only for the Channel
  Voice messages. For system messages the whole byte matters: 0xFA starts,
  0xFC stops, and every other 0xF_ byte is rejected.

## Model

| member | source | states |
|---|---|---|
| `Transport.NewMailbox` | src/events.rs:117-120 | the new channel is empty and its id is not used by any live channel; no other queue changes |
| `Transport.AddressOf` | src/events.rs:121-123 | an address made from a mailbox targets that mailbox and carries its name |
| `Transport.Send` | src/events.rs:88-91 | exactly one event is appended to the target queue; every other queue and the set of live channels are unchanged; sending to a dropped mailbox is excluded |
| `Transport.Read` | src/events.rs:124-126 | returns the whole queue in order, leaves it empty and touches no other queue |
| `Transport.SendAll` | src/events.rs:88-91 | a producer's events arrive at the end of the target queue, in send order, and nowhere else |
| `Transport.InterleaveDelivers` | src/events.rs:88-91 | with several producers interleaving their sends, each mailbox receives exactly the events addressed to it, in the order they were sent |
| `Transport.NewBook` | src/events.rs:103-105 | a new address book has no subscribers |
| `Transport.AddTo` | src/events.rs:106-108 | add appends at the end and keeps every earlier subscription, duplicates included |
| `Transport.DropMailbox` | src/events.rs:72-91 | dropping a mailbox drops its receiver: addresses of that mailbox can no longer be sent to, every other address still can, and no other queue changes |
| `Transport.BookSend` | src/events.rs:109-113 | sending through a book needs every subscriber alive, since a dropped one panics, and creates or removes no channel; what each mailbox receives is stated by `Transport.BookSendDelivers` |
| `Transport.BookSendDelivers` | src/events.rs:109-113 | a mailbox subscribed k times receives k copies of the event; an unsubscribed mailbox, and so every mailbox for an empty book, receives nothing |
| `Transport.ReadReturnsSendsSinceLastRead` | src/events.rs:124-126 | after a read, a later read returns exactly the events sent in between, in send order, once each, and empties the queue again |
| `Transport.ReadEmpty` | src/events.rs:124-126 | reading an empty mailbox returns nothing and changes nothing |
| `Events.IntoUpdater` | src/events.rs:40-45 | wraps the handler with a fresh, empty mailbox of the given name |
| `Events.ReceiverAddress` | src/events.rs:52-54 | the receiver's address targets its own mailbox |
| `Events.HandleAllAppend` | src/events.rs:62-64 | handling a concatenation of events is handling the first part, then the second from the state the first left; the events sent are those of the first part followed by those of the second |
| `Events.Update` | src/events.rs:61-65 | the handler is given exactly the queued events, in arrival order; the mailbox is left empty, and every mailbox then holds its earlier events followed by exactly the events the handler sent to it, in send order; no channel is created or removed |
| `Events.UpdateHandsEachEventOnceInOrder` | src/events.rs:61-65 | over two ticks with events sent in between, a recording handler sees every event exactly once, in arrival order |
| `CursiveRenderer.NewRenderer` | src/cursive_renderer.rs:62-73 | the context gets a fresh mailbox of the given name; configure is called once with the context's address, the book holds exactly the subscriptions it made, and each mailbox, the new one included, receives exactly what configure sent to it |
| `CursiveRenderer.RendererConnectTo` | src/cursive_renderer.rs:110-112 | connecting the renderer appends the address to its context's book and changes nothing else |
| `CursiveRenderer.ConnectTo` | src/cursive_renderer.rs:119-121 | connecting the context appends the address to its book and keeps its mailbox |
| `CursiveRenderer.ContextAddress` | src/cursive_renderer.rs:128-130 | the context's address targets the context's own mailbox |
| `CursiveRenderer.SendEachDelivers` | src/cursive_renderer.rs:138-140 | forwarding a sequence of events through a book gives each mailbox every event, in order, once per subscription it has; forwarding nothing needs no live subscriber |
| `CursiveRenderer.PumpEvents` | src/cursive_renderer.rs:137-141 | the mailbox is drained and each drained event is forwarded, in arrival order, once per subscription; the own mailbox keeps only what it receives as its own subscriber; an idle pump sends nothing, so a dropped subscriber is harmless then |
| `CursiveRenderer.IdlePumpChangesNothing` | src/cursive_renderer.rs:137-141 | pumping an empty mailbox sends nothing and changes nothing, even when a subscriber was dropped |
| `CursiveRenderer.PumpEventsForwardsInOrder` | src/cursive_renderer.rs:137-141 | a subscriber listed once receives the drained events exactly in arrival order; an unsubscribed mailbox is untouched; a context not subscribed to itself ends with an empty mailbox |
| `CursiveRenderer.DefaultNeedToUpdate` | src/cursive_renderer.rs:49-51 | the default need_to_update always asks for an update and sends nothing |
| `CursiveRenderer.Gate` | src/cursive_renderer.rs:94-96 | update runs exactly when need_to_update says so, and then its subscriptions are appended to the book; otherwise the context is untouched; the sends of need_to_update come before those of update |
| `CursiveRenderer.Render` | src/cursive_renderer.rs:93-99 | render is the gated update followed by one pump: the callbacks' sends are delivered first, then the own mailbox, with what they sent to it, is drained and every subscriber listed k times receives those events k times over, in order; the own mailbox keeps only what it forwarded to itself; every subscriber must be alive only when there is something to forward |
| `CursiveRenderer.DefaultGateAlwaysUpdates` | src/cursive_renderer.rs:93-96 | with the default need_to_update, every render runs the view's update |
| `Reflection.F32IntoValue` | src/properties.rs:79-83 | an f32 becomes a Float carrying it |
| `Reflection.F32FromValue` | src/properties.rs:70-77 | converting to f32 succeeds exactly on a Float; any other variant panics |
| `Reflection.BoolIntoValue` | src/properties.rs:94-98 | a bool becomes a Bool carrying it |
| `Reflection.BoolFromValue` | src/properties.rs:85-92 | converting to bool succeeds exactly on a Bool; any other variant panics |
| `Reflection.I32IntoValue` | src/properties.rs:109-113 | an i32 becomes an Integer carrying it |
| `Reflection.I32FromValue` | src/properties.rs:100-107 | converting to i32 succeeds exactly on an Integer; any other variant panics |
| `Reflection.ConversionsRoundTrip` | src/properties.rs:70-113 | from(into(x)) == x for f32, bool and i32, and into(from(v)) == v whenever from succeeds |
| `Reflection.Get` | src/properties.rs:65-67 | get returns the field's current value in the variant of the field's type |
| `Reflection.Set` | src/properties.rs:62-64 | set succeeds exactly when the value's variant matches the field's type; then a following get returns the value and no other field changes |
| `Reflection.SetGetRoundTrip` | src/properties.rs:62-67 | setting what get returned leaves the store unchanged |
| `Reflection.NewProperties` | src/properties.rs:25-29 | a new snapshot has no bindings |
| `Reflection.Without` | src/properties.rs:34 | the retain step drops every binding of the name and keeps all others |
| `Reflection.WithoutAppend` | src/properties.rs:34 | retain keeps relative order: it distributes over concatenation |
| `Reflection.WithoutAbsent` | src/properties.rs:34 | retain leaves a list without the name unchanged |
| `Reflection.Add` | src/properties.rs:30-38 | after add, the new binding is last and no other binding has its name; the others keep their order |
| `Reflection.AddKeepsNamesUnique` | src/properties.rs:30-38 | unique names hold of a new snapshot and are preserved by add |
| `Reflection.WithoutUnique` | src/properties.rs:34 | retain preserves unique names |
| `Reflection.Find` | src/repl.rs:182 | the lookup finds the first binding of the name, and finds nothing exactly when no binding has it |
| `Reflection.FindAfterAdd` | src/properties.rs:30-38 | after add(name, ..), looking up the name finds the new binding |
| `Reflection.FindWithout` | src/properties.rs:34 | dropping one name's bindings does not change lookups of any other name |
| `Reflection.FindOtherAfterAdd` | src/properties.rs:30-38 | add does not change what any other name finds |
| `Reflection.SetKeepsWellTyped` | src/properties.rs:62-64 | a successful set keeps every binding of the snapshot bound to a field of its type |
| `Literals.Words` | src/repl.rs:54 | the line is split into non-empty words without white space |
| `Literals.WordsSkipsWhitespace` | src/repl.rs:54 | white space in front of a line does not change its words |
| `Literals.WordsCons` | src/repl.rs:54 | a word followed by white space or by the end of the line is the line's first word, and the words of the rest follow it |
| `Literals.WordsUnwords` | src/repl.rs:54 | splitting words joined by single spaces gives back the same words |
| `Literals.ParseBool` | src/repl.rs:154 | only "true" and "false" parse as bool, to true and false |
| `Literals.ParseI32` | src/repl.rs:158 | an optional sign and one or more digits parse as i32 exactly when the value is in the i32 range |
| `Literals.ParseFormatI32` | src/repl.rs:158 | parsing the decimal form of any i32 gives the same i32 back |
| `Literals.ParseF32` | src/repl.rs:156 | a string parses as f32 exactly when it matches the float literal grammar; the result is the rounding of the literal |
| `Literals.IntegerLiteralIsFloatLiteral` | src/repl.rs:156-158 | every string i32 accepts, f32 accepts too |
| `Literals.ParseValue` | src/repl.rs:152-164 | None for no word; otherwise bool first, then f32, then i32, the first success wins; None exactly when all three fail |
| `Literals.ParseValueNeverInteger` | src/repl.rs:152-164 | parse_value never yields Integer, because f32 is tried first |
| `Repl.Interpret` | src/repl.rs:54-128 | an empty line does nothing; set, get and exit with their arguments send one request; missing arguments, an unparsable value and unknown commands are usage errors that send nothing; exit! leaves at once |
| `Repl.Conclude` | src/repl.rs:56-124 | only Ok for set, a Value for get and ExitSuccessful for exit count as success; PropertyNotFound, timeouts, disconnections and other responses print a message; a failed exit advises exit! |
| `Repl.ClientStep` | src/repl.rs:131-140 | at most one request is sent per line; the loop breaks only on a line-editor error, exit!, or an exit answered with ExitSuccessful |
| `Repl.CreateRepl` | src/repl.rs:9-22 | both channels start empty |
| `Repl.ClientSend` | src/repl.rs:59 | a request is appended to the request channel |
| `Repl.ClientReceive` | src/repl.rs:60-61 | the wait takes the oldest response, or times out when none is queued |
| `Repl.Serve` | src/repl.rs:174-192 | set on a bound name writes the value into the bound field, leaves every other field as it was and answers Ok; get answers the current value; a missing name answers PropertyNotFound and keeps the store; exit keeps the store, quits once and answers twice; a type mismatch panics |
| `Repl.ServeAll` | src/repl.rs:173-193 | the batch panics exactly when some request does; otherwise it produces one response per set or get and two per exit, and calls quit once per exit |
| `Repl.Update` | src/repl.rs:171-194 | the request channel is left empty; the update panics exactly when the drain does, and otherwise appends exactly the drain's responses, in order, to the response channel and leaves the drain's store |
| `Repl.ServeAllAppend` | src/repl.rs:173-193 | serving a batch a + b is serving a, then b against the store a left; the responses of a come first and the quits add up; a panic in either part panics the whole batch |
| `Repl.ServeAllAnswersInOrder` | src/repl.rs:173-193 | the responses come out in request order: the block starting after the responses of reqs[..i] is exactly what serving reqs[i] answers against the store the earlier requests left |
| `Repl.MissingNameNotFound` | src/repl.rs:175-185 | set and get on a missing name answer PropertyNotFound and leave the store unchanged |
| `Repl.SetThenGetInOneBatch` | src/repl.rs:172-185 | in one batch, a get after a set of the same name answers the value just set |
| `Repl.ExitKeepsServing` | src/repl.rs:186-192 | an exit answers ExitSuccessful twice and calls quit once, and the requests after it are still served |
| `Repl.IntegerPropertyCannotBeSet` | src/repl.rs:156-158 | a set sent from a console line to an i32 property always panics the server |
| `Repl.ThreePointFiveIsFloat` | src/repl.rs:156 | "3.5" is not a bool and is a float literal |
| `Repl.SetLine` | src/repl.rs:56-59 | the line `set x 3.5` sends a set of the f32 that "3.5" denotes |
| `Repl.GetLine` | src/repl.rs:82-84 | the line `get x` sends a get of x |
| `Repl.RoundTrip` | src/repl.rs:171-194 | a request sent on fresh channels and served in one update is answered with the server's first response to it alone |
| `Repl.SetThenGetRoundTrip` | src/repl.rs:56-107 | set with a value of the property's own type succeeds silently, and a later get shows that value |
| `Repl.FloatPropertyRoundTrip` | src/repl.rs:56-107 | the lines `set x 3.5` then `get x` on an f32 property are sent as requests, and the get shows the f32 that "3.5" denotes |
| `Repl.ExitLeavesSecondResponse` | src/repl.rs:186-192 | after an exit round trip the loop breaks, quit was called once, and the second ExitSuccessful stays queued |
| `Midi.Decode` | src/midi.rs:35-71 | empty input and status bytes below 0x80 decode to None; a message decodes exactly when its status is recognised and enough data bytes follow; NoteOn with velocity 0 is NoteOff; a pitch bend is h*128 + l and at most 32895 |
| `Midi.ChannelIgnored` | src/midi.rs:38 | for Channel Voice status bytes the channel nibble does not affect the result |
| `Midi.SystemNibbleMatters` | src/midi.rs:59-65 | 0xFA decodes to Start and 0xFC to Stop, while 0xFB is rejected |
| `Midi.TrailingBytesIgnored` | src/midi.rs:49-52 | bytes after the ones a message consumes are ignored |
| `Midi.DecodeEncode` | src/midi.rs:35-71 | every message the decoder can produce, encoded on any channel, decodes back to itself |
| `Midi.EncodeDecode` | src/midi.rs:35-71 | every decoded message can be encoded again on its channel into bytes that decode to it |
| `Time.NewClock` | src/time.rs:19-26 | a new clock is at the epoch with zero deltas, and its system time is the current reading |
| `Time.Add` | src/time.rs:56-66 | clock + tick moves time forward by the tick's delta; the system delta is the gap between the system times; the tick must not go backwards |
| `Time.AddAssign` | src/time.rs:68-77 | += leaves exactly the state + produces |
| `Time.NewUpdater` | src/time.rs:94-98 | a new updater holds the epoch sentinel |
| `Time.UpdaterStep` | src/time.rs:106-117 | the first tick has delta 0, later ticks the time since the previous reading; the reading becomes the last one |
| `Time.DriveTelescopes` | src/time.rs:106-117 | once the updater has a reading, simulated time advances by exactly the wall-clock time that passes and never goes backwards |
| `Time.DriveFromStart` | src/time.rs:19-26 | from a new clock and updater, simulated time equals the wall-clock time from the first reading to the last |
| `Geometry.DefaultVertex` | src/geometry.rs:12-20 | the default vertex is at the origin, opaque white, with texture at the origin |
| `Geometry.At` | src/geometry.rs:23-28 | at(p) differs from the default vertex only in position |
| `Geometry.FromPoint3` | src/geometry.rs:50-54 | converting a 3D point gives the vertex at that point with the default colour and texture, which is what at(p) builds |
| `Geometry.FromPoint2` | src/geometry.rs:41-48 | a 2D point becomes a vertex at z = 0 with default colour and texture |
| `Geometry.ColorVertex` | src/geometry.rs:30-32 | color replaces the colour only |
| `Geometry.TransformVertex` | src/geometry.rs:33-38 | transform applies the matrix to the position only |
| `Geometry.VertexOperations` | src/geometry.rs:30-38 | colouring twice is colouring with the second colour, and colouring commutes with transforming |
| `Geometry.NewTriangle` | src/geometry.rs:64-66 | a new triangle iterates as its three vertices in order |
| `Geometry.DefaultTriangle` | src/geometry.rs:94-102 | the default triangle has three default vertices |
| `Geometry.Vertices` | src/geometry.rs:89-91 | iterating a triangle yields three vertices |
| `Geometry.ColorTriangle` | src/geometry.rs:75-82 | every vertex is recoloured alike |
| `Geometry.TransformTriangle` | src/geometry.rs:67-74 | every vertex is transformed alike |
| `Geometry.ColorMesh` | src/geometry.rs:116-121 | recolouring keeps the count and order of triangles and recolours each one |
| `Geometry.TransformMesh` | src/geometry.rs:110-115 | transforming keeps the count and order of triangles and transforms each one |
| `Geometry.ColorMeshTwice` | src/geometry.rs:116-121 | recolouring a mesh twice is recolouring it with the second colour |
| `Geometry.TransformMeshComposes` | src/geometry.rs:110-115 | transforming by m1 then m2 is transforming by their composition |
| `Geometry.ColorTransformCommute` | src/geometry.rs:110-121 | recolouring and transforming a mesh commute |

## Left out

- Threads and blocking: the mpsc channels are sequential FIFO queues. The
  10-second `recv_timeout` is a `TimedOut` reply, returned when nothing is
  queued.
- Disconnection: both ends of the console channels live as long as the
  program. So `ClientReceive` never yields `Disconnected`, and `Conclude` and
  `ClientStep` accept it only as an input.
- Console I/O: the rustyline editor, the prompt and every `println!` are not
  modelled. A line-editor failure is the input `ReadlineError`. A printed
  message or value is the `Output` of a step.
- Float parsing: decimal-to-f32 rounding is the function parameter `round`.
  The grammar follows current Rust, which also accepts `inf`, `infinity`
  and `nan`. Older Rust releases accepted fewer forms.
- Properties iteration: `Properties::iter` and `iter_mut` appear only through
  the first-match lookup `Find` that the server performs.
- MIDI I/O: the midir port prompt, the connection and `MidiUpdater` are
  foreign I/O. Only the decoder is modelled.
- Clock input: `SystemTime::now` is the parameter `now`. The f32 seconds
  conversions of `Clock` (`time_in_sec` and the others) are floating point.
  The panic of `duration_since(..).unwrap()` when the wall clock is set back
  (src/time.rs:60, 71 and 111) is not modelled: the model requires readings
  that never go backwards.
- Tick delivery: `OnTick::on_tick` is user code, so `Drive` hands each tick
  straight to the clock.
- Geometry arithmetic: nalgebra's `transform_point` and the colour and point
  arithmetic are not modelled. A matrix is the map it applies to points.
  The projection matrices of the camera are not part of this model.
- Renderer screen: the cursive screen, `screen()` and `step()` are UI and
  are not modelled. Screen callbacks registered in `configure` may hold the
  context's address and send during `step()`; those events are missing, so
  the queue `Render` pumps counts only what was queued before and what
  `need_to_update` and `update` sent.
- Callbacks: `handle_event`, `configure`, `update` and `need_to_update` are
  function parameters. Each returns its new state, its subscriptions where
  the source lets it subscribe, and the events it sends as a list of
  (address, event) pairs. These sends are delivered when the callback
  returns, in send order. A callback that creates or reads a mailbox of
  its own while it runs is not modelled.
- Other modules: light, mesh_renderer, input and property_editor only
  forward to backend traits. lib.rs only declares modules.

=== FILE: cursive_renderer.dfy ===
/** The event plumbing of the terminal-UI renderer: a context that owns a
    mailbox and an address book, and re-publishes every event its mailbox
    receives to all subscribers. The terminal screen itself is not modelled.
    The view's callbacks are function parameters. `configure` and `update`
    receive the context's address and return the view, the addresses they
    subscribe, in order, and the events they send, in order, through any
    address (the context's own included). `need_to_update` returns the view,
    its answer and the events it sends. */
module CursiveRenderer {
  import opened Transport

  datatype Context = Context(addressBook: AddressBook, mailbox: Mailbox)

  datatype Renderer<V> = Renderer(view: V, context: Context)

  /** CursiveRenderer::new: an empty address book, a fresh empty mailbox, and
      one call of `configure` on them. What `configure` sends is delivered;
      a send to a dropped mailbox is fatal in the source and excluded here. */
  function NewRenderer<V, E>(w: World<E>, name: string, view: V,
                             configure: (V, Address) -> (V, seq<Address>, Outbox<E>))
    : (r: (World<E>, Renderer<V>))
    requires Valid(w)
    requires LogReachable(NewMailbox(w, name).0, configure(view, AddressOf(NewMailbox(w, name).1)).2)
    ensures Valid(r.0)
    ensures var m := r.1.context.mailbox;
            m.id !in w.queues && m.name == name && r.0.queues.Keys == w.queues.Keys + {m.id}
    ensures var m := r.1.context.mailbox;
            var (v, subscriptions, sent) := configure(view, AddressOf(m));
            && r.1.view == v && r.1.context.addressBook.addresses == subscriptions
            && r.0.queues[m.id] == EventsFor(sent, m.id)
            && forall id :: id in w.queues ==> r.0.queues[id] == w.queues[id] + EventsFor(sent, id)
  {
    var (w1, m) := NewMailbox(w, name);
    var (v, subscriptions, sent) := configure(view, AddressOf(m));
    var w2 := Interleave(w1, sent);
    forall id | id in w1.queues
      ensures w2.queues[id] == w1.queues[id] + EventsFor(sent, id)
    {
      InterleaveDelivers(w1, sent, id);
    }
    assert NewBook().addresses + subscriptions == subscriptions;
    (w2, Renderer(v, Context(AddressBook(NewBook().addresses + subscriptions), m)))
  }

  /** EventEmitter::connect_to for the context: subscribes `a` last. */
  function ConnectTo(ctx: Context, a: Address): (r: Context)
    ensures r.mailbox == ctx.mailbox
    ensures r.addressBook.addresses == ctx.addressBook.addresses + [a]
  {
    ctx.(addressBook := AddTo(ctx.addressBook, a))
  }

  /** EventEmitter::connect_to for the renderer forwards to its context. */
  function RendererConnectTo<V>(r: Renderer<V>, a: Address): (r': Renderer<V>)
    ensures r'.view == r.view && r'.context.mailbox == r.context.mailbox
    ensures r'.context.addressBook.addresses == r.context.addressBook.addresses + [a]
  {
    r.(context := ConnectTo(r.context, a))
  }

  /** EventReceiver::address for the context: an address of its own mailbox. */
  function ContextAddress(ctx: Context): (a: Address)
    ensures a.target == ctx.mailbox.id && a.name == ctx.mailbox.name
  {
    AddressOf(ctx.mailbox)
  }

  /** Each event of `es`, in order, repeated `k` times. */
  function Spread<E>(es: seq<E>, k: nat): (r: seq<E>)
    decreases |es|
  {
    if es == [] then [] else Copies(es[0], k) + Spread(es[1..], k)
  }

  lemma {:induction false} SpreadOnce<E>(es: seq<E>)
    ensures Spread(es, 1) == es
    decreases |es|
  {
    if es != [] {
      SpreadOnce(es[1..]);
      assert [es[0]] + es[1..] == es;
    }
  }

  lemma {:induction false} SpreadNone<E>(es: seq<E>)
    ensures Spread(es, 0) == []
    decreases |es|
  {
    if es != [] {
      SpreadNone(es[1..]);
    }
  }

  /** Sends every event of `es` to the whole book, one event after the other.
      With nothing to send no address is used, so a dropped subscriber is
      harmless. */
  function SendEach<E>(w: World<E>, b: AddressBook, es: seq<E>): (r: World<E>)
    requires es == [] || Live(w, b)
    ensures r.next == w.next && r.queues.Keys == w.queues.Keys
    decreases |es|
  {
    if es == [] then w else SendEach(BookSend(w, b, es[0]), b, es[1..])
  }

  /** Each mailbox receives every event once per subscription it has, event
      by event in order. */
  lemma {:induction false} SendEachDelivers<E>(w: World<E>, b: AddressBook, es: seq<E>, id: MailboxId)
    requires (es == [] || Live(w, b)) && id in w.queues
    ensures SendEach(w, b, es).queues[id] == w.queues[id] + Spread(es, Count(b.addresses, id))
    decreases |es|
  {
    if es == [] {
      assert w.queues[id] + [] == w.queues[id];
    } else {
      var k := Count(b.addresses, id);
      var w1 := BookSend(w, b, es[0]);
      assert Live(w1, b);
      SendEachDelivers(w1, b, es[1..], id);
      BookSendDelivers(w, b, es[0], id);
    }
  }

  /** CursiveContext::pump_events: drains the mailbox, then forwards every
      drained event, in arrival order, to every subscriber in subscription
      order. The events are collected before any is forwarded, so a context
      subscribed to itself gets its own events back for the next pump. An
      idle pump sends nothing, so it cannot fail on a dropped subscriber. */
  function PumpEvents<E>(w: World<E>, ctx: Context): (r: World<E>)
    requires ctx.mailbox.id in w.queues
    requires w.queues[ctx.mailbox.id] == [] || Live(w, ctx.addressBook)
    ensures r.next == w.next && r.queues.Keys == w.queues.Keys
    ensures var q := w.queues[ctx.mailbox.id];
            forall id :: id in w.queues ==>
              r.queues[id] == (if id == ctx.mailbox.id then [] else w.queues[id])
                              + Spread(q, Count(ctx.addressBook.addresses, id))
  {
    var (w1, events) := Read(w, ctx.mailbox);
    var r := SendEach(w1, ctx.addressBook, events);
    assert forall id :: id in w.queues ==>
      r.queues[id] == w1.queues[id] + Spread(events, Count(ctx.addressBook.addresses, id)) by {
      forall id | id in w.queues
        ensures r.queues[id] == w1.queues[id] + Spread(events, Count(ctx.addressBook.addresses, id))
      {
        SendEachDelivers(w1, ctx.addressBook, events, id);
      }
    }
    r
  }

  /** A subscriber listed once receives every pumped event once, in order, and
      a mailbox nobody subscribed to its own context is left empty. */
  lemma PumpEventsForwardsInOrder<E>(w: World<E>, ctx: Context, id: MailboxId)
    requires ctx.mailbox.id in w.queues && id in w.queues
    requires w.queues[ctx.mailbox.id] == [] || Live(w, ctx.addressBook)
    ensures var q := w.queues[ctx.mailbox.id];
            var r := PumpEvents(w, ctx);
            && (id != ctx.mailbox.id && Count(ctx.addressBook.addresses, id) == 1 ==> r.queues[id] == w.queues[id] + q)
            && (id != ctx.mailbox.id && Count(ctx.addressBook.addresses, id) == 0 ==> r.queues[id] == w.queues[id])
            && (Count(ctx.addressBook.addresses, ctx.mailbox.id) == 0 ==> r.queues[ctx.mailbox.id] == [])
  {
    var q := w.queues[ctx.mailbox.id];
    SpreadOnce(q);
    SpreadNone(q);
  }

  /** A pump with an empty mailbox changes nothing, whatever the book holds,
      dropped subscribers included. */
  lemma IdlePumpChangesNothing<E>(w: World<E>, ctx: Context)
    requires ctx.mailbox.id in w.queues && w.queues[ctx.mailbox.id] == []
    ensures PumpEvents(w, ctx) == w
  {
  }

  /** The default of CursiveView::need_to_update: always update, send
      nothing. */
  function DefaultNeedToUpdate<V, D, E>(view: V, data: D): (r: (V, bool, Outbox<E>))
    ensures r.0 == view && r.1 && r.2 == []
  {
    (view, true, [])
  }

  /** The update gating of render: `update` runs only when `needToUpdate`
      says so, and its subscriptions are appended to the book. The result
      carries what the two callbacks sent, in order. */
  function Gate<V, D, E>(r: Renderer<V>, data: D, needToUpdate: (V, D) -> (V, bool, Outbox<E>),
                         update: (V, Address, D) -> (V, seq<Address>, Outbox<E>)): (g: (Renderer<V>, Outbox<E>))
    ensures g.0.context.mailbox == r.context.mailbox
    ensures var (v, go, asked) := needToUpdate(r.view, data);
            && (!go ==> g == (r.(view := v), asked))
            && (go ==> var (v1, subscriptions, sent) := update(v, ContextAddress(r.context), data);
                       && g.0.view == v1
                       && g.0.context.addressBook.addresses == r.context.addressBook.addresses + subscriptions
                       && g.1 == asked + sent)
  {
    var (v, go, asked) := needToUpdate(r.view, data);
    if go then
      var (v1, subscriptions, sent) := update(v, ContextAddress(r.context), data);
      (Renderer(v1, r.context.(addressBook := AddressBook(r.context.addressBook.addresses + subscriptions))), asked + sent)
    else
      (r.(view := v), asked)
  }

  /** Renderer::render: the gated update, whose sends are delivered at once,
      a screen step (not modelled), then one pump. So what the view sends
      to its own context during the update is forwarded in the same render. */
  function Render<V, D, E>(w: World<E>, r: Renderer<V>, data: D, needToUpdate: (V, D) -> (V, bool, Outbox<E>),
                           update: (V, Address, D) -> (V, seq<Address>, Outbox<E>)): (result: (World<E>, Renderer<V>))
    requires r.context.mailbox.id in w.queues
    requires LogReachable(w, Gate(r, data, needToUpdate, update).1)
    requires var own := r.context.mailbox.id;
             || w.queues[own] + EventsFor(Gate(r, data, needToUpdate, update).1, own) == []
             || Live(w, Gate(r, data, needToUpdate, update).0.context.addressBook)
    ensures result.1 == Gate(r, data, needToUpdate, update).0
    ensures result.0.next == w.next && result.0.queues.Keys == w.queues.Keys
    ensures var own := r.context.mailbox.id;
            var sent := Gate(r, data, needToUpdate, update).1;
            var q := w.queues[own] + EventsFor(sent, own);
            forall id :: id in w.queues ==>
              result.0.queues[id] == (if id == own then [] else w.queues[id] + EventsFor(sent, id))
                                     + Spread(q, Count(result.1.context.addressBook.addresses, id))
  {
    var (g, sent) := Gate(r, data, needToUpdate, update);
    var w1 := Interleave(w, sent);
    forall id | id in w.queues
      ensures w1.queues[id] == w.queues[id] + EventsFor(sent, id)
    {
      InterleaveDelivers(w, sent, id);
    }
    assert w1.queues[r.context.mailbox.id] == [] || Live(w1, g.context.addressBook);
    (PumpEvents(w1, g.context), g)
  }

  /** With the default gate, every render runs the view's update, and only
      the update sends. */
  lemma DefaultGateAlwaysUpdates<V, D, E>(r: Renderer<V>, data: D, update: (V, Address, D) -> (V, seq<Address>, Outbox<E>))
    ensures var (v, subscriptions, sent) := update(r.view, ContextAddress(r.context), data);
            Gate(r, data, DefaultNeedToUpdate, update)
              == (Renderer(v, r.context.(addressBook := AddressBook(r.context.addressBook.addresses + subscriptions))), sent)
  {
    var (v, subscriptions, sent) := update(r.view, ContextAddress(r.context), data);
    assert [] + sent == sent;
  }
}

=== FILE: events.dfy ===
/** `events::simple`: an event handler wrapped with its own mailbox, drained
    once per host tick. The handler, the host backend and the model are folded
    into the handler's state `H` and the data `D`. `handle_event` is a
    function parameter that returns the new state, the new data and the
    events it sent, in order, through addresses it holds. */
module Events {
  import opened Transport

  datatype SimpleEventReceiver<H> = SimpleEventReceiver(handler: H, mailbox: Mailbox)

  /** EventHandler::into_updater wraps a handler with a brand-new mailbox. */
  function IntoUpdater<H, E>(w: World<E>, handler: H, name: string): (r: (World<E>, SimpleEventReceiver<H>))
    requires Valid(w)
    ensures Valid(r.0)
    ensures r.1.handler == handler && r.1.mailbox.name == name
    ensures r.1.mailbox.id !in w.queues
    ensures r.0.queues == w.queues[r.1.mailbox.id := []]
  {
    var (w1, m) := NewMailbox(w, name);
    (w1, SimpleEventReceiver(handler, m))
  }

  /** EventReceiver::address for a receiver: an address of its mailbox. */
  function ReceiverAddress<H>(r: SimpleEventReceiver<H>): (a: Address)
    ensures a.target == r.mailbox.id
  {
    AddressOf(r.mailbox)
  }

  /** Hands `events` to `handle`, one at a time, first to last, and collects
      what the calls send, in the order they send it. */
  function HandleAll<H, D, E>(handle: (H, D, E) -> (H, D, Outbox<E>), h: H, d: D, events: seq<E>)
    : (H, D, Outbox<E>)
    decreases |events|
  {
    if events == [] then (h, d, [])
    else
      var (h1, d1, o1) := handle(h, d, events[0]);
      var (h2, d2, o2) := HandleAll(handle, h1, d1, events[1..]);
      (h2, d2, o1 + o2)
  }

  /** Handling `a + b` is handling `a`, then `b`; the sends of the first
      part come first. */
  lemma {:induction false} HandleAllAppend<H, D, E>(handle: (H, D, E) -> (H, D, Outbox<E>), h: H, d: D, a: seq<E>, b: seq<E>)
    ensures HandleAll(handle, h, d, a + b)
         == (var (h1, d1, o1) := HandleAll(handle, h, d, a);
             var (h2, d2, o2) := HandleAll(handle, h1, d1, b);
             (h2, d2, o1 + o2))
    decreases |a|
  {
    if a == [] {
      assert a + b == b;
      var (h2, d2, o2) := HandleAll(handle, h, d, b);
      assert [] + o2 == o2;
    } else {
      var (hx, dx, ox) := handle(h, d, a[0]);
      assert (a + b)[0] == a[0] && (a + b)[1..] == a[1..] + b;
      HandleAllAppend(handle, hx, dx, a[1..], b);
      var (h1, d1, o1) := HandleAll(handle, hx, dx, a[1..]);
      var (h2, d2, o2) := HandleAll(handle, h1, d1, b);
      assert ox + (o1 + o2) == (ox + o1) + o2;
    }
  }

  /** Updater::update for SimpleEventReceiver: drains the mailbox, hands
      every drained event to the handler, and delivers what the handler
      sends. Events the handler sends to its own mailbox wait for the next
      tick, because the drained events were collected first. A send to a
      dropped mailbox is fatal in the source and is excluded here. */
  function Update<H, D, E>(w: World<E>, r: SimpleEventReceiver<H>, d: D, handle: (H, D, E) -> (H, D, Outbox<E>))
    : (result: (World<E>, SimpleEventReceiver<H>, D))
    requires r.mailbox.id in w.queues
    requires LogReachable(w, HandleAll(handle, r.handler, d, w.queues[r.mailbox.id]).2)
    ensures result.1.mailbox == r.mailbox
    ensures var (h, d', _) := HandleAll(handle, r.handler, d, w.queues[r.mailbox.id]);
            result.1.handler == h && result.2 == d'
    ensures result.0.next == w.next && result.0.queues.Keys == w.queues.Keys
    ensures var sent := HandleAll(handle, r.handler, d, w.queues[r.mailbox.id]).2;
            forall id :: id in w.queues ==>
              result.0.queues[id] == (if id == r.mailbox.id then [] else w.queues[id]) + EventsFor(sent, id)
  {
    var (w1, events) := Read(w, r.mailbox);
    var (h1, d1, sent) := HandleAll(handle, r.handler, d, events);
    var w2 := Interleave(w1, sent);
    forall id | id in w.queues
      ensures w2.queues[id] == (if id == r.mailbox.id then [] else w.queues[id]) + EventsFor(sent, id)
    {
      InterleaveDelivers(w1, sent, id);
    }
    (w2, r.(handler := h1), d1)
  }

  /** A handler that records what it is given and sends nothing. */
  function Record<H, E>(h: H, log: seq<E>, e: E): (H, seq<E>, Outbox<E>)
  {
    (h, log + [e], [])
  }

  lemma {:induction false} RecordAll<H, E>(h: H, log: seq<E>, events: seq<E>)
    ensures HandleAll(Record, h, log, events) == (h, log + events, [])
    decreases |events|
  {
    if events == [] {
      assert log + events == log;
      assert HandleAll(Record, h, log, events) == (h, log, []);
    } else {
      var log1 := log + [events[0]];
      assert Record(h, log, events[0]) == (h, log1, []);
      RecordAll(h, log1, events[1..]);
      assert log1 + events[1..] == log + events;
      var none: Outbox<E> := [];
      assert none + none == none;
      assert HandleAll(Record, h, log, events) == (h, log1 + events[1..], none + none);
    }
  }

  /** Over two ticks, with `es` sent through the receiver's address between
      them, every event reaches `handle_event` exactly once and in arrival
      order: the first tick sees what was queued before it, the second
      exactly `es`. */
  lemma UpdateHandsEachEventOnceInOrder<H, E>(w: World<E>, r: SimpleEventReceiver<H>, log: seq<E>, es: seq<E>)
    requires r.mailbox.id in w.queues
    ensures HandleAll(Record, r.handler, log, w.queues[r.mailbox.id]).2 == []
            && var (w1, r1, log1) := Update(w, r, log, Record);
               var w2 := SendAll(w1, ReceiverAddress(r1), es);
               && HandleAll(Record, r1.handler, log1, w2.queues[r.mailbox.id]).2 == []
               && var (w3, r3, log3) := Update(w2, r1, log1, Record);
                  log1 == log + w.queues[r.mailbox.id] && log3 == log1 + es && w3.queues[r.mailbox.id] == []
  {
    var q := w.queues[r.mailbox.id];
    RecordAll(r.handler, log, q);
    var (w1, r1, log1) := Update(w, r, log, Record);
    var w2 := SendAll(w1, ReceiverAddress(r1), es);
    assert w2.queues[r.mailbox.id] == [] + es;
    RecordAll(r1.handler, log1, es);
  }
}

=== FILE: geometry.dfy ===
/** The structural part of `geometry`: vertices, triangles and meshes as
    records, recoloured and transformed element by element. Coordinates and
    colour channels are f32 bit patterns; a matrix is known only through the
    action of `transform_point`, which is a function parameter here. */
module Geometry {
  import opened Scalars

  datatype Point2 = Point2(x: F32, y: F32)
  datatype Point3 = Point3(x: F32, y: F32, z: F32)

  /** An RGBA colour (`Vector4<f32>`). */
  datatype Color = Color(r: F32, g: F32, b: F32, a: F32)

  /** A 4x4 matrix, by the map `transform_point` makes of it. */
  type Matrix = Point3 -> Point3

  const Origin2 := Point2(Zero, Zero)
  const Origin3 := Point3(Zero, Zero, Zero)
  const White := Color(One, One, One, One)

  datatype Vertex = Vertex(position: Point3, color: Color, texture: Point2)

  /** Vertex::default: at the origin, opaque white, texture origin. */
  function DefaultVertex(): (v: Vertex)
    ensures v.position == Origin3 && v.color == White && v.texture == Origin2
  {
    Vertex(Origin3, White, Origin2)
  }

  /** Vertex::at: the default vertex moved to `p`. */
  function At(p: Point3): (v: Vertex)
    ensures v.position == p
    ensures v.(position := Origin3) == DefaultVertex()
  {
    DefaultVertex().(position := p)
  }

  /** From<Point3>: the same vertex Vertex::at builds. */
  function FromPoint3(p: Point3): (v: Vertex)
    ensures v.position == p && v.color == DefaultVertex().color && v.texture == DefaultVertex().texture
  {
    At(p)
  }

  /** From<Point2>: the point lifted to z = 0, with default colour and texture. */
  function FromPoint2(p: Point2): (v: Vertex)
    ensures v.position == Point3(p.x, p.y, Zero)
    ensures v.color == White && v.texture == Origin2
  {
    Vertex(Point3(p.x, p.y, Zero), DefaultVertex().color, DefaultVertex().texture)
  }

  /** Vertex::color replaces the colour only. */
  function ColorVertex(v: Vertex, c: Color): (r: Vertex)
    ensures r.color == c && r.position == v.position && r.texture == v.texture
  {
    v.(color := c)
  }

  /** Vertex::transform moves the position only. */
  function TransformVertex(v: Vertex, m: Matrix): (r: Vertex)
    ensures r.position == m(v.position) && r.color == v.color && r.texture == v.texture
  {
    v.(position := m(v.position))
  }

  /** Recolouring twice is recolouring with the second colour; recolouring
      and transforming commute. */
  lemma VertexOperations(v: Vertex, c1: Color, c2: Color, m: Matrix)
    ensures ColorVertex(ColorVertex(v, c1), c2) == ColorVertex(v, c2)
    ensures ColorVertex(TransformVertex(v, m), c1) == TransformVertex(ColorVertex(v, c1), m)
  {
  }

  datatype Triangle = Triangle(v1: Vertex, v2: Vertex, v3: Vertex)

  /** Triangle::new */
  function NewTriangle(v1: Vertex, v2: Vertex, v3: Vertex): (t: Triangle)
    ensures Vertices(t) == [v1, v2, v3]
  {
    Triangle(v1, v2, v3)
  }

  /** Triangle::default: three default vertices. */
  function DefaultTriangle(): (t: Triangle)
    ensures forall i :: 0 <= i < 3 ==> Vertices(t)[i] == DefaultVertex()
  {
    Triangle(DefaultVertex(), DefaultVertex(), DefaultVertex())
  }

  /** Triangle::into_iter: the three vertices, in order. */
  function Vertices(t: Triangle): (vs: seq<Vertex>)
    ensures |vs| == 3
  {
    [t.v1, t.v2, t.v3]
  }

  /** Triangle::color applies Vertex::color to each vertex. */
  function ColorTriangle(t: Triangle, c: Color): (r: Triangle)
    ensures forall i :: 0 <= i < 3 ==> Vertices(r)[i] == ColorVertex(Vertices(t)[i], c)
  {
    Triangle(ColorVertex(t.v1, c), ColorVertex(t.v2, c), ColorVertex(t.v3, c))
  }

  /** Triangle::transform applies Vertex::transform to each vertex. */
  function TransformTriangle(t: Triangle, m: Matrix): (r: Triangle)
    ensures forall i :: 0 <= i < 3 ==> Vertices(r)[i] == TransformVertex(Vertices(t)[i], m)
  {
    Triangle(TransformVertex(t.v1, m), TransformVertex(t.v2, m), TransformVertex(t.v3, m))
  }

  datatype Mesh = Mesh(triangles: seq<Triangle>)

  /** Mesh::color: every triangle recoloured, count and order kept. */
  function ColorMesh(mesh: Mesh, c: Color): (r: Mesh)
    ensures |r.triangles| == |mesh.triangles|
    ensures forall i :: 0 <= i < |mesh.triangles| ==> r.triangles[i] == ColorTriangle(mesh.triangles[i], c)
    decreases |mesh.triangles|
  {
    if mesh.triangles == [] then mesh
    else Mesh([ColorTriangle(mesh.triangles[0], c)] + ColorMesh(Mesh(mesh.triangles[1..]), c).triangles)
  }

  /** Mesh::transform: every triangle transformed, count and order kept. */
  function TransformMesh(mesh: Mesh, m: Matrix): (r: Mesh)
    ensures |r.triangles| == |mesh.triangles|
    ensures forall i :: 0 <= i < |mesh.triangles| ==> r.triangles[i] == TransformTriangle(mesh.triangles[i], m)
    decreases |mesh.triangles|
  {
    if mesh.triangles == [] then mesh
    else Mesh([TransformTriangle(mesh.triangles[0], m)] + TransformMesh(Mesh(mesh.triangles[1..]), m).triangles)
  }

  /** Recolouring a mesh twice is recolouring it with the second colour. */
  lemma ColorMeshTwice(mesh: Mesh, c1: Color, c2: Color)
    ensures ColorMesh(ColorMesh(mesh, c1), c2) == ColorMesh(mesh, c2)
  {
    var a := ColorMesh(ColorMesh(mesh, c1), c2);
    var b := ColorMesh(mesh, c2);
    forall i | 0 <= i < |mesh.triangles| ensures a.triangles[i] == b.triangles[i] {
      var t := mesh.triangles[i];
      VertexOperations(t.v1, c1, c2, x => x);
      VertexOperations(t.v2, c1, c2, x => x);
      VertexOperations(t.v3, c1, c2, x => x);
    }
  }

  /** Transforming by `m1` then `m2` is transforming by their composition. */
  lemma TransformMeshComposes(mesh: Mesh, m1: Matrix, m2: Matrix)
    ensures TransformMesh(TransformMesh(mesh, m1), m2) == TransformMesh(mesh, p => m2(m1(p)))
  {
    var a := TransformMesh(TransformMesh(mesh, m1), m2);
    var b := TransformMesh(mesh, p => m2(m1(p)));
    assert forall i :: 0 <= i < |mesh.triangles| ==> a.triangles[i] == b.triangles[i];
  }

  /** Recolouring and transforming a mesh commute. */
  lemma ColorTransformCommute(mesh: Mesh, c: Color, m: Matrix)
    ensures ColorMesh(TransformMesh(mesh, m), c) == TransformMesh(ColorMesh(mesh, c), m)
  {
    var a := ColorMesh(TransformMesh(mesh, m), c);
    var b := TransformMesh(ColorMesh(mesh, c), m);
    assert forall i :: 0 <= i < |mesh.triangles| ==> a.triangles[i] == b.triangles[i];
  }
}

=== FILE: literals.dfy ===
/** The text side of the console: splitting a line into words, and the
    standard-library parsers `parse_value` relies on (`bool`, `f32` and
    `i32` from a string), followed by `parse_value` itself. */
module Literals {
  import opened Wrappers
  import opened Scalars
  import opened Reflection

  // ---------------------------------------------------------------------
  // Words of a line, as `str::split_whitespace` yields them.

  /** Characters with the Unicode White_Space property. */
  predicate IsWhitespace(c: char)
  {
    var n := c as int;
    || 0x09 <= n <= 0x0D || n == 0x20 || n == 0x85 || n == 0xA0 || n == 0x1680
    || 0x2000 <= n <= 0x200A || n == 0x2028 || n == 0x2029 || n == 0x202F
    || n == 0x205F || n == 0x3000
  }

  /** A word: non-empty, without white space. */
  predicate IsWord(s: string)
  {
    |s| > 0 && forall i :: 0 <= i < |s| ==> !IsWhitespace(s[i])
  }

  /** The length of the word `s` starts with. */
  function WordLength(s: string): (n: nat)
    requires |s| > 0 && !IsWhitespace(s[0])
    ensures 0 < n <= |s| && IsWord(s[..n])
    ensures n == |s| || IsWhitespace(s[n])
    decreases |s|
  {
    if |s| == 1 || IsWhitespace(s[1]) then 1
    else
      var n := 1 + WordLength(s[1..]);
      assert s[..n] == [s[0]] + s[1..][..n - 1];
      n
  }

  /** str::split_whitespace: the maximal runs of non-white-space characters. */
  function Words(s: string): (r: seq<string>)
    ensures forall i :: 0 <= i < |r| ==> IsWord(r[i])
    decreases |s|
  {
    if s == [] then []
    else if IsWhitespace(s[0]) then Words(s[1..])
    else
      var n := WordLength(s);
      [s[..n]] + Words(s[n..])
  }

  /** Words joined by single spaces. */
  function Unwords(ws: seq<string>): string
  {
    if |ws| == 0 then ""
    else if |ws| == 1 then ws[0]
    else ws[0] + " " + Unwords(ws[1..])
  }

  lemma {:induction false} WordLengthOfWord(w: string, rest: string)
    requires IsWord(w) && (rest == [] || IsWhitespace(rest[0]))
    ensures WordLength(w + rest) == |w|
    decreases |w|
  {
    var s := w + rest;
    if |w| > 1 {
      assert s[1..] == w[1..] + rest;
      WordLengthOfWord(w[1..], rest);
    }
  }

  /** White space before a line does not change its words. */
  lemma {:induction false} WordsSkipsWhitespace(sep: string, s: string)
    requires forall i :: 0 <= i < |sep| ==> IsWhitespace(sep[i])
    ensures Words(sep + s) == Words(s)
    decreases |sep|
  {
    if sep == [] {
      assert sep + s == s;
    } else {
      assert (sep + s)[0] == sep[0] && (sep + s)[1..] == sep[1..] + s;
      WordsSkipsWhitespace(sep[1..], s);
    }
  }

  /** A word followed by white space, or by nothing, is the first word of
      the line, and the words of the rest follow it. */
  lemma WordsCons(w: string, s: string)
    requires IsWord(w) && (s == [] || IsWhitespace(s[0]))
    ensures Words(w + s) == [w] + Words(s)
  {
    WordLengthOfWord(w, s);
    var line := w + s;
    assert line[0] == w[0] && line[..|w|] == w && line[|w|..] == s;
  }

  /** Splitting a line of words separated by single spaces gives back the
      words: split_whitespace inverts joining. */
  lemma {:induction false} WordsUnwords(ws: seq<string>)
    requires forall i :: 0 <= i < |ws| ==> IsWord(ws[i])
    ensures Words(Unwords(ws)) == ws
    decreases |ws|
  {
    if |ws| == 1 {
      var w := ws[0];
      WordLengthOfWord(w, []);
      assert w + [] == w;
      assert w[|w|..] == [];
    } else if |ws| > 1 {
      var w := ws[0];
      var tail := " " + Unwords(ws[1..]);
      WordLengthOfWord(w, tail);
      var s := w + tail;
      assert s == Unwords(ws);
      assert s[..|w|] == w && s[|w|..] == tail;
      assert tail[1..] == Unwords(ws[1..]);
      WordsUnwords(ws[1..]);
    }
  }

  // ---------------------------------------------------------------------
  // bool::from_str

  function ParseBool(s: string): (r: Option<bool>)
    ensures r.Some? <==> s == "true" || s == "false"
    ensures r == Some(true) <==> s == "true"
  {
    if s == "true" then Some(true)
    else if s == "false" then Some(false)
    else None
  }

  // ---------------------------------------------------------------------
  // i32::from_str: an optional sign, then one or more ASCII digits, in range.

  predicate IsDigit(c: char)
  {
    '0' <= c <= '9'
  }

  predicate AllDigits(s: string)
  {
    forall i :: 0 <= i < |s| ==> IsDigit(s[i])
  }

  /** The string after a leading `+` or `-`, if there is one. */
  function Unsigned(s: string): (u: string)
    ensures |u| <= |s|
  {
    if |s| > 0 && (s[0] == '+' || s[0] == '-') then s[1..] else s
  }

  /** The value of a string of decimal digits. */
  function DigitsValue(s: string): nat
    requires AllDigits(s)
    decreases |s|
  {
    if s == [] then 0
    else DigitsValue(s[..|s| - 1]) * 10 + (s[|s| - 1] as int - '0' as int)
  }

  predicate IsIntegerLiteral(s: string)
  {
    |Unsigned(s)| > 0 && AllDigits(Unsigned(s))
  }

  /** The integer an integer literal denotes. */
  function IntegerValue(s: string): int
    requires IsIntegerLiteral(s)
  {
    if s[0] == '-' then -(DigitsValue(Unsigned(s)) as int) else DigitsValue(Unsigned(s))
  }

  function ParseI32(s: string): (r: Option<I32>)
    ensures r.Some? <==> IsIntegerLiteral(s) && -0x8000_0000 <= IntegerValue(s) < 0x8000_0000
    ensures r.Some? ==> r.value as int == IntegerValue(s)
  {
    if IsIntegerLiteral(s) then
      var v := IntegerValue(s);
      if -0x8000_0000 <= v < 0x8000_0000 then Some(v as I32) else None
    else None
  }

  /** The decimal digits of `n`, without leading zeros. */
  function Decimal(n: nat): (s: string)
    ensures |s| > 0 && AllDigits(s)
    decreases n
  {
    var d := [('0' as int + n % 10) as char];
    if n < 10 then d else Decimal(n / 10) + d
  }

  lemma {:induction false} DecimalValue(n: nat)
    ensures DigitsValue(Decimal(n)) == n
    decreases n
  {
    var s := Decimal(n);
    if n >= 10 {
      DecimalValue(n / 10);
      assert s[..|s| - 1] == Decimal(n / 10);
    }
  }

  /** i32's Display: a minus sign for negative values, then the digits. */
  function FormatI32(x: I32): string
  {
    if x < 0 then "-" + Decimal(-(x as int)) else Decimal(x as int)
  }

  /** Parsing what i32's Display prints gives the same integer back. */
  lemma ParseFormatI32(x: I32)
    ensures ParseI32(FormatI32(x)) == Some(x)
  {
    var s := FormatI32(x);
    if x < 0 {
      DecimalValue(-(x as int));
      assert Unsigned(s) == Decimal(-(x as int));
    } else {
      DecimalValue(x as int);
      assert Unsigned(s) == Decimal(x as int);
    }
  }

  // ---------------------------------------------------------------------
  // f32::from_str. The accepted syntax is
  //   Float    ::= Sign? ( 'inf' | 'infinity' | 'nan' | Number )
  //   Number   ::= ( Digit+ | Digit+ '.' Digit* | Digit* '.' Digit+ ) Exp?
  //   Exp      ::= 'e' Sign? Digit+
  // with letters matched regardless of case. Which f32 a literal denotes
  // (decimal-to-binary rounding) is the parameter `round`.

  function LowerAscii(s: string): (r: string)
    ensures |r| == |s|
  {
    if s == [] then []
    else [if 'A' <= s[0] <= 'Z' then (s[0] as int + 32) as char else s[0]] + LowerAscii(s[1..])
  }

  predicate IsSpecialFloat(u: string)
  {
    var l := LowerAscii(u);
    l == "inf" || l == "infinity" || l == "nan"
  }

  /** Index of the first `c` or `c'` in `s`, or |s| if there is neither. */
  function IndexOfEither(s: string, c: char, c': char): (k: nat)
    ensures k <= |s|
    ensures forall i :: 0 <= i < k ==> s[i] != c && s[i] != c'
    ensures k < |s| ==> s[k] == c || s[k] == c'
    decreases |s|
  {
    if s == [] then 0
    else if s[0] == c || s[0] == c' then 0
    else 1 + IndexOfEither(s[1..], c, c')
  }

  /** Index of the first `c` in `s`, or |s| if there is none. */
  function IndexOf(s: string, c: char): (k: nat)
    ensures k <= |s|
    ensures forall i :: 0 <= i < k ==> s[i] != c
    ensures k < |s| ==> s[k] == c
  {
    IndexOfEither(s, c, c)
  }

  predicate IsMantissa(m: string)
  {
    var d := IndexOf(m, '.');
    && AllDigits(m[..d])
    && (d < |m| ==> AllDigits(m[d + 1..]))
    && (d > 0 || d + 1 < |m|)
  }

  predicate IsExponent(x: string)
  {
    |Unsigned(x)| > 0 && AllDigits(Unsigned(x))
  }

  predicate IsDecimalFloat(u: string)
  {
    var k := IndexOfEither(u, 'e', 'E');
    IsMantissa(u[..k]) && (k < |u| ==> IsExponent(u[k + 1..]))
  }

  predicate IsFloatLiteral(s: string)
  {
    IsSpecialFloat(Unsigned(s)) || IsDecimalFloat(Unsigned(s))
  }

  function ParseF32(s: string, round: string -> F32): (r: Option<F32>)
    ensures r.Some? <==> IsFloatLiteral(s)
    ensures r.Some? ==> r.value == round(s)
  {
    if IsFloatLiteral(s) then Some(round(s)) else None
  }

  /** Every string i32 accepts, f32 accepts too. */
  lemma IntegerLiteralIsFloatLiteral(s: string)
    requires IsIntegerLiteral(s)
    ensures IsFloatLiteral(s)
  {
    var u := Unsigned(s);
    DigitsHaveNo(u, 'e', 'E');
    DigitsHaveNo(u, '.', '.');
    assert u[..|u|] == u;
  }

  lemma {:induction false} DigitsHaveNo(s: string, c: char, c': char)
    requires AllDigits(s) && !IsDigit(c) && !IsDigit(c')
    ensures IndexOfEither(s, c, c') == |s|
    decreases |s|
  {
    if s != [] {
      DigitsHaveNo(s[1..], c, c');
    }
  }

  // ---------------------------------------------------------------------
  // parse_value

  /** Tries bool, then f32, then i32; the first success wins. */
  function ParseValue(s: Option<string>, round: string -> F32): (r: Option<Value>)
    ensures s.None? ==> r.None?
    ensures s.Some? && ParseBool(s.value).Some? ==> r == Some(Bool(s.value == "true"))
    ensures s.Some? && ParseBool(s.value).None? && IsFloatLiteral(s.value) ==> r == Some(Float(round(s.value)))
    ensures r.Some? && r.value.Integer? ==> ParseI32(s.value) == Some(r.value.i)
    ensures r.None? <==> s.None? || (ParseBool(s.value).None? && !IsFloatLiteral(s.value) && ParseI32(s.value).None?)
  {
    match s
    case None => None
    case Some(w) =>
      match ParseBool(w)
      case Some(b) => Some(Bool(b))
      case None =>
        match ParseF32(w, round)
        case Some(f) => Some(Float(f))
        case None =>
          match ParseI32(w)
          case Some(i) => Some(Integer(i))
          case None => None
  }

  /** Because f32 is tried before i32 and accepts every integer literal,
      parse_value never produces an Integer. */
  lemma ParseValueNeverInteger(s: Option<string>, round: string -> F32)
    ensures ParseValue(s, round).None? || !ParseValue(s, round).value.Integer?
  {
    if s.Some? && ParseI32(s.value).Some? {
      IntegerLiteralIsFloatLiteral(s.value);
    }
  }
}

=== FILE: midi.dfy ===
/** The byte decoder of `MidiMessage::from`: the Channel Voice messages and
    the System Real-Time Start and Stop messages of the MIDI 1.0 Detailed
    Specification, decoded from the bytes of one message. Data bytes are
    passed through as they come, without checking their top bit. */
module Midi {
  import opened Wrappers

  /** A `u8` of the source. */
  newtype U8 = x: int | 0 <= x < 0x100

  /** A `u16` of the source; arithmetic on it must stay in range. */
  newtype U16 = x: int | 0 <= x < 0x1_0000

  datatype MidiMessage =
    | NoteOff(key: U8, velocity: U8)
    | NoteOn(key: U8, velocity: U8)
    | KeyPressure(key: U8, pressure: U8)
    | ControlChange(controller: U8, value: U8)
    | ProgramChange(program: U8)
    | ChannelPressure(pressure: U8)
    | PitchBendChange(bend: U16)
    | Start
    | Stop

  /** The message type: the high nibble of the status byte, which the source
      extracts as `(b1 & 0b1111_0000) >> 4`. */
  function Kind(status: U8): U8
  {
    status / 16
  }

  /** How many data bytes the decoder consumes after a status byte. */
  function DataLength(status: U8): nat
  {
    var k := Kind(status);
    if k == 0x8 || k == 0x9 || k == 0xA || k == 0xB || k == 0xE then 2
    else if k == 0xC || k == 0xD then 1
    else 0
  }

  /** The status bytes the decoder recognises. */
  predicate Recognised(status: U8)
  {
    (0x8 <= Kind(status) <= 0xE) || status == 0xFA || status == 0xFC
  }

  /** MidiMessage::from. */
  function Decode(bytes: seq<U8>): (r: Option<MidiMessage>)
    ensures |bytes| == 0 ==> r.None?
    ensures |bytes| > 0 && bytes[0] < 0x80 ==> r.None?
    ensures r.Some? <==> |bytes| > 0 && Recognised(bytes[0]) && |bytes| >= 1 + DataLength(bytes[0])
    ensures r.Some? && Kind(bytes[0]) == 0x9 ==>
              if bytes[2] == 0 then r.value == NoteOff(bytes[1], 0) else r.value == NoteOn(bytes[1], bytes[2])
    ensures r.Some? && Kind(bytes[0]) == 0xE ==>
              r.value.PitchBendChange? && r.value.bend as int == bytes[2] as int * 128 + bytes[1] as int
              && r.value.bend <= 32895
  {
    if |bytes| == 0 then None
    else
      var b1 := bytes[0];
      var k := Kind(b1);
      if k == 0x8 then
        if |bytes| < 3 then None else Some(NoteOff(bytes[1], bytes[2]))
      else if k == 0x9 then
        if |bytes| < 3 then None
        else
          var key := bytes[1];
          var vel := bytes[2];
          if vel > 0 then Some(NoteOn(key, vel)) else Some(NoteOff(key, vel))
      else if k == 0xA then
        if |bytes| < 3 then None else Some(KeyPressure(bytes[1], bytes[2]))
      else if k == 0xB then
        if |bytes| < 3 then None else Some(ControlChange(bytes[1], bytes[2]))
      else if k == 0xC then
        if |bytes| < 2 then None else Some(ProgramChange(bytes[1]))
      else if k == 0xD then
        if |bytes| < 2 then None else Some(ChannelPressure(bytes[1]))
      else if k == 0xE then
        if |bytes| < 3 then None
        else
          var l := bytes[1] as int as U16;
          var h := bytes[2] as int as U16;
          Some(PitchBendChange(h * 128 + l))
      else if k == 0xF then
        if b1 == 0xFA then Some(Start)
        else if b1 == 0xFC then Some(Stop)
        else None
      else None
  }

  /** For Channel Voice messages the channel (low nibble) does not matter. */
  lemma ChannelIgnored(bytes: seq<U8>, channel: U8)
    requires |bytes| > 0 && 0x80 <= bytes[0] < 0xF0 && channel < 16
    ensures Decode([Kind(bytes[0]) * 16 + channel] + bytes[1..]) == Decode(bytes)
  {
    var b := Kind(bytes[0]) * 16 + channel;
    assert Kind(b) == Kind(bytes[0]);
    var bs := [b] + bytes[1..];
    assert |bs| == |bytes| && forall i :: 1 <= i < |bs| ==> bs[i] == bytes[i];
  }

  /** For System messages the low nibble does matter: 0xFA starts, while
      0xFB, which differs only there, is not decoded. */
  lemma SystemNibbleMatters()
    ensures Decode([0xFA]) == Some(Start) && Decode([0xFC]) == Some(Stop)
    ensures Decode([0xFB]) == None
  {
  }

  /** Bytes after the ones a message consumes are ignored. */
  lemma TrailingBytesIgnored(bytes: seq<U8>, extra: seq<U8>)
    requires |bytes| > 0 && |bytes| == 1 + DataLength(bytes[0])
    ensures Decode(bytes + extra) == Decode(bytes)
  {
    var bs := bytes + extra;
    assert bs[0] == bytes[0];
    assert forall i :: 0 <= i < |bytes| ==> bs[i] == bytes[i];
  }

  /** The messages the decoder can produce: a NoteOn never carries velocity
      0, and a pitch bend is at most 255 * 128 + 255. */
  predicate Encodable(m: MidiMessage)
  {
    match m
    case NoteOn(_, v) => v != 0
    case PitchBendChange(b) => b <= 32895
    case _ => true
  }

  /** A status byte of message type `kind` on channel `channel`. */
  function Status(kind: U8, channel: U8): (b: U8)
    requires kind < 16 && channel < 16
    ensures Kind(b) == kind && b % 16 == channel
  {
    kind * 16 + channel
  }

  /** The two data bytes that carry a pitch bend, low byte first. */
  function BendBytes(b: U16): (r: (U8, U8))
    requires b <= 32895
    ensures r.1 as int * 128 + r.0 as int == b as int
  {
    var h: int := if b as int / 128 > 255 then 255 else b as int / 128;
    var l: int := b as int - h * 128;
    (l as U8, h as U8)
  }

  /** The bytes of `m` on channel `channel`; the inverse of Decode. */
  function Encode(m: MidiMessage, channel: U8): (bytes: seq<U8>)
    requires Encodable(m) && channel < 16
    ensures |bytes| > 0 && |bytes| == 1 + DataLength(bytes[0])
  {
    match m
    case NoteOff(k, v) => [Status(0x8, channel), k, v]
    case NoteOn(k, v) => [Status(0x9, channel), k, v]
    case KeyPressure(k, p) => [Status(0xA, channel), k, p]
    case ControlChange(c, v) => [Status(0xB, channel), c, v]
    case ProgramChange(p) => [Status(0xC, channel), p]
    case ChannelPressure(p) => [Status(0xD, channel), p]
    case PitchBendChange(b) =>
      var (l, h) := BendBytes(b);
      [Status(0xE, channel), l, h]
    case Start => [0xFA]
    case Stop => [0xFC]
  }

  /** Decoding what was encoded gives the message back. */
  lemma DecodeEncode(m: MidiMessage, channel: U8)
    requires Encodable(m) && channel < 16
    ensures Decode(Encode(m, channel)) == Some(m)
  {
    var bs := Encode(m, channel);
    match m
    case PitchBendChange(b) =>
      var (l, h) := BendBytes(b);
      assert bs == [Status(0xE, channel), l, h];
    case _ =>
  }

  /** Every decoded message can be encoded again, on the channel it came
      from, into bytes that decode to it. */
  lemma EncodeDecode(bytes: seq<U8>)
    requires Decode(bytes).Some?
    ensures Encodable(Decode(bytes).value)
    ensures Decode(Encode(Decode(bytes).value, bytes[0] % 16)) == Decode(bytes)
  {
    var m := Decode(bytes).value;
    assert Encodable(m);
    assert bytes[0] % 16 < 16;
    DecodeEncode(m, bytes[0] % 16);
  }
}

=== FILE: reflection.dfy ===
/** `properties`: named, typed, live bindings into fields of running state.
    The live fields are a store from location to field; a binding records the
    field's name, its location and the Rust type it has. */
module Reflection {
  import opened Wrappers
  import opened Scalars

  /** The closed union exchanged through the property protocol. */
  datatype Value = Float(f: F32) | Integer(i: I32) | Bool(b: bool)

  /** The three field types a binding can have: f32, i32 and bool. */
  datatype Kind = F32Kind | I32Kind | BoolKind

  /** A live field of one of the three supported types. */
  datatype Field = F32Field(f: F32) | I32Field(i: I32) | BoolField(b: bool)

  type Location = nat
  type Store = map<Location, Field>

  function ValueKind(v: Value): Kind
  {
    match v
    case Float(_) => F32Kind
    case Integer(_) => I32Kind
    case Bool(_) => BoolKind
  }

  function FieldKind(x: Field): Kind
  {
    match x
    case F32Field(_) => F32Kind
    case I32Field(_) => I32Kind
    case BoolField(_) => BoolKind
  }

  // Into<Value> and From<Value> for each primitive. `None` from a From
  // conversion is the source's panic on a mismatched variant.

  function F32IntoValue(x: F32): (v: Value)
    ensures v.Float? && v.f == x
  {
    Float(x)
  }

  function F32FromValue(v: Value): (r: Option<F32>)
    ensures r.Some? <==> v.Float?
  {
    match v
    case Float(x) => Some(x)
    case _ => None
  }

  function BoolIntoValue(x: bool): (v: Value)
    ensures v.Bool? && v.b == x
  {
    Bool(x)
  }

  function BoolFromValue(v: Value): (r: Option<bool>)
    ensures r.Some? <==> v.Bool?
  {
    match v
    case Bool(x) => Some(x)
    case _ => None
  }

  function I32IntoValue(x: I32): (v: Value)
    ensures v.Integer? && v.i == x
  {
    Integer(x)
  }

  function I32FromValue(v: Value): (r: Option<I32>)
    ensures r.Some? <==> v.Integer?
  {
    match v
    case Integer(x) => Some(x)
    case _ => None
  }

  /** The conversions are mutually inverse on the matching variant. */
  lemma ConversionsRoundTrip(x: F32, y: bool, z: I32, v: Value)
    ensures F32FromValue(F32IntoValue(x)) == Some(x)
    ensures BoolFromValue(BoolIntoValue(y)) == Some(y)
    ensures I32FromValue(I32IntoValue(z)) == Some(z)
    ensures F32FromValue(v).Some? ==> F32IntoValue(F32FromValue(v).value) == v
    ensures BoolFromValue(v).Some? ==> BoolIntoValue(BoolFromValue(v).value) == v
    ensures I32FromValue(v).Some? ==> I32IntoValue(I32FromValue(v).value) == v
  {
  }

  /** A PropertyReference: a name bound to the field at `location`, whose
      type is `kind`. */
  datatype PropertyRef = PropertyRef(name: string, location: Location, kind: Kind)

  /** The binding's field exists and has the binding's type. */
  predicate Bound(store: Store, p: PropertyRef)
  {
    p.location in store && FieldKind(store[p.location]) == p.kind
  }

  /** Property::get: the field's current value, converted into a Value. */
  function Get(store: Store, p: PropertyRef): (v: Value)
    requires Bound(store, p)
    ensures ValueKind(v) == p.kind
    ensures match store[p.location]
            case F32Field(x) => v == Float(x)
            case I32Field(x) => v == Integer(x)
            case BoolField(x) => v == Bool(x)
  {
    match store[p.location]
    case F32Field(x) => F32IntoValue(x)
    case I32Field(x) => I32IntoValue(x)
    case BoolField(x) => BoolIntoValue(x)
  }

  /** Property::set: converts `v` to the field's type and writes it back.
      `None` is the panic of a mismatched variant. */
  function Set(store: Store, p: PropertyRef, v: Value): (r: Option<Store>)
    requires Bound(store, p)
    ensures r.Some? <==> ValueKind(v) == p.kind
    ensures r.Some? ==> r.value.Keys == store.Keys && Bound(r.value, p) && Get(r.value, p) == v
    ensures r.Some? ==> forall l :: l in store && l != p.location ==> r.value[l] == store[l]
  {
    match p.kind
    case F32Kind =>
      (match F32FromValue(v)
       case Some(x) => Some(store[p.location := F32Field(x)])
       case None => None)
    case I32Kind =>
      (match I32FromValue(v)
       case Some(x) => Some(store[p.location := I32Field(x)])
       case None => None)
    case BoolKind =>
      (match BoolFromValue(v)
       case Some(x) => Some(store[p.location := BoolField(x)])
       case None => None)
  }

  /** Writing back what was read leaves the store as it was. */
  lemma SetGetRoundTrip(store: Store, p: PropertyRef)
    requires Bound(store, p)
    ensures Set(store, p, Get(store, p)) == Some(store)
  {
    var r := Set(store, p, Get(store, p));
    assert r.value == store by {
      assert r.value[p.location] == store[p.location];
    }
  }

  /** A Properties snapshot: bindings in registration order. */
  datatype Properties = Properties(bindings: seq<PropertyRef>)

  /** Properties::new */
  function NewProperties(): (ps: Properties)
    ensures |ps.bindings| == 0
  {
    Properties([])
  }

  /** The `retain` step of add: drops every binding called `name`. */
  function Without(bs: seq<PropertyRef>, name: string): (r: seq<PropertyRef>)
    ensures |r| <= |bs|
    ensures forall i :: 0 <= i < |r| ==> r[i].name != name && r[i] in bs
    ensures forall p :: p in bs && p.name != name ==> p in r
    decreases |bs|
  {
    if bs == [] then []
    else if bs[0].name == name then Without(bs[1..], name)
    else [bs[0]] + Without(bs[1..], name)
  }

  /** Retaining keeps the relative order: it distributes over concatenation. */
  lemma {:induction false} WithoutAppend(a: seq<PropertyRef>, b: seq<PropertyRef>, name: string)
    ensures Without(a + b, name) == Without(a, name) + Without(b, name)
    decreases |a|
  {
    if a == [] {
      assert a + b == b;
    } else {
      assert (a + b)[0] == a[0] && (a + b)[1..] == a[1..] + b;
      WithoutAppend(a[1..], b, name);
    }
  }

  /** Retaining only removes: a sequence without `name` is left as it is. */
  lemma {:induction false} WithoutAbsent(bs: seq<PropertyRef>, name: string)
    requires forall i :: 0 <= i < |bs| ==> bs[i].name != name
    ensures Without(bs, name) == bs
    decreases |bs|
  {
    if bs != [] {
      WithoutAbsent(bs[1..], name);
      assert [bs[0]] + bs[1..] == bs;
    }
  }

  /** Properties::add: last wins. Any earlier binding of `name` is removed,
      the others keep their order, and the new binding goes last. */
  function Add(ps: Properties, name: string, location: Location, kind: Kind): (r: Properties)
    ensures |r.bindings| > 0
    ensures r.bindings[|r.bindings| - 1] == PropertyRef(name, location, kind)
    ensures r.bindings[..|r.bindings| - 1] == Without(ps.bindings, name)
    ensures forall i :: 0 <= i < |r.bindings| - 1 ==> r.bindings[i].name != name
  {
    Properties(Without(ps.bindings, name) + [PropertyRef(name, location, kind)])
  }

  /** No two bindings share a name. */
  predicate UniqueNames(ps: Properties)
  {
    DistinctNames(ps.bindings)
  }

  predicate DistinctNames(bs: seq<PropertyRef>)
  {
    forall i, j :: 0 <= i < j < |bs| ==> bs[i].name != bs[j].name
  }

  /** Name uniqueness holds of the empty snapshot and is preserved by add. */
  lemma AddKeepsNamesUnique(ps: Properties, name: string, location: Location, kind: Kind)
    requires UniqueNames(ps)
    ensures UniqueNames(NewProperties())
    ensures UniqueNames(Add(ps, name, location, kind))
  {
    var r := Add(ps, name, location, kind);
    var w := Without(ps.bindings, name);
    WithoutUnique(ps.bindings, name);
    forall i, j | 0 <= i < j < |r.bindings|
      ensures r.bindings[i].name != r.bindings[j].name
    {
      assert r.bindings[..|r.bindings| - 1] == w;
      if j < |r.bindings| - 1 {
        assert r.bindings[i] == w[i] && r.bindings[j] == w[j];
        assert w[i].name != w[j].name;
      } else {
        assert r.bindings[i].name != name;
      }
    }
  }

  lemma {:induction false} WithoutUnique(bs: seq<PropertyRef>, name: string)
    requires DistinctNames(bs)
    ensures DistinctNames(Without(bs, name))
    decreases |bs|
  {
    if bs != [] {
      assert DistinctNames(bs[1..]) by {
        forall i, j | 0 <= i < j < |bs[1..]| ensures bs[1..][i].name != bs[1..][j].name {
          assert bs[1..][i] == bs[i + 1] && bs[1..][j] == bs[j + 1];
        }
      }
      WithoutUnique(bs[1..], name);
      if bs[0].name != name {
        var rest := Without(bs[1..], name);
        forall p | p in rest ensures p.name != bs[0].name {
          var k :| 0 <= k < |bs[1..]| && bs[1..][k] == p;
          assert bs[k + 1] == p;
        }
        ConsDistinct(bs[0], rest);
      }
    }
  }

  /** A binding whose name nobody in `bs` uses can be put in front. */
  lemma ConsDistinct(b: PropertyRef, bs: seq<PropertyRef>)
    requires DistinctNames(bs) && forall p :: p in bs ==> p.name != b.name
    ensures DistinctNames([b] + bs)
  {
    var w := [b] + bs;
    forall i, j | 0 <= i < j < |w| ensures w[i].name != w[j].name {
      assert w[j] == bs[j - 1];
      if i > 0 {
        assert w[i] == bs[i - 1];
      }
    }
  }

  /** The binding the source finds with `iter().find(|p| p.name() == name)`:
      the first one called `name`. */
  function Find(ps: Properties, name: string): (r: Option<PropertyRef>)
    ensures r.None? <==> forall i :: 0 <= i < |ps.bindings| ==> ps.bindings[i].name != name
    ensures r.Some? ==> r.value in ps.bindings && r.value.name == name
    ensures r.Some? ==> exists i :: 0 <= i < |ps.bindings| && ps.bindings[i] == r.value
                                   && forall j :: 0 <= j < i ==> ps.bindings[j].name != name
    decreases |ps.bindings|
  {
    if ps.bindings == [] then None
    else if ps.bindings[0].name == name then Some(ps.bindings[0])
    else
      var r := Find(Properties(ps.bindings[1..]), name);
      if r.Some? then
        var i :| 0 <= i < |ps.bindings[1..]| && ps.bindings[1..][i] == r.value
                 && forall j :: 0 <= j < i ==> ps.bindings[1..][j].name != name;
        assert ps.bindings[i + 1] == r.value;
        r
      else r
  }

  /** After add(name, ..), looking `name` up finds the new binding. */
  lemma FindAfterAdd(ps: Properties, name: string, location: Location, kind: Kind)
    ensures Find(Add(ps, name, location, kind), name) == Some(PropertyRef(name, location, kind))
  {
    var r := Add(ps, name, location, kind);
    var k := Find(r, name);
    assert k.Some?;
    var i :| 0 <= i < |r.bindings| && r.bindings[i] == k.value
             && forall j :: 0 <= j < i ==> r.bindings[j].name != name;
  }

  /** Looking up in `a + b` looks in `a` first, then in `b`. */
  lemma {:induction false} FindAppend(a: seq<PropertyRef>, b: seq<PropertyRef>, name: string)
    ensures Find(Properties(a + b), name)
         == if Find(Properties(a), name).Some? then Find(Properties(a), name) else Find(Properties(b), name)
    decreases |a|
  {
    if a == [] {
      assert a + b == b;
    } else {
      assert (a + b)[0] == a[0] && (a + b)[1..] == a[1..] + b;
      FindAppend(a[1..], b, name);
    }
  }

  /** Dropping the bindings of one name does not change lookups of another. */
  lemma {:induction false} FindWithout(bs: seq<PropertyRef>, name: string, other: string)
    requires other != name
    ensures Find(Properties(Without(bs, name)), other) == Find(Properties(bs), other)
    decreases |bs|
  {
    if bs != [] {
      FindWithout(bs[1..], name, other);
      if bs[0].name != name {
        assert ([bs[0]] + Without(bs[1..], name))[1..] == Without(bs[1..], name);
      }
    }
  }

  /** Adding `name` does not change what any other name finds. */
  lemma FindOtherAfterAdd(ps: Properties, name: string, other: string, location: Location, kind: Kind)
    requires other != name
    ensures Find(Add(ps, name, location, kind), other) == Find(ps, other)
  {
    var w := Without(ps.bindings, name);
    FindAppend(w, [PropertyRef(name, location, kind)], other);
    FindWithout(ps.bindings, name, other);
  }

  /** Every binding of the snapshot is bound in the store. */
  predicate WellTyped(store: Store, ps: Properties)
  {
    forall i :: 0 <= i < |ps.bindings| ==> Bound(store, ps.bindings[i])
  }

  /** A successful set keeps every binding of the snapshot bound. */
  lemma SetKeepsWellTyped(store: Store, ps: Properties, p: PropertyRef, v: Value)
    requires WellTyped(store, ps) && Bound(store, p)
    requires Set(store, p, v).Some?
    ensures WellTyped(Set(store, p, v).value, ps)
  {
    var s := Set(store, p, v).value;
    forall i | 0 <= i < |ps.bindings| ensures Bound(s, ps.bindings[i]) {
      var q := ps.bindings[i];
      assert Bound(store, q);
      if q.location == p.location {
        assert FieldKind(s[q.location]) == p.kind == FieldKind(store[q.location]);
      }
    }
  }
}

=== FILE: repl.dfy ===
/** The remote property protocol: a console client and a server polled once
    per host tick, talking over a pair of FIFO channels. The client's blocking
    wait for a response is modelled by what the wait yields (a response, a
    timeout or a disconnection); the server is a fold over the queued
    requests against one snapshot of the live properties. */
module Repl {
  import opened Wrappers
  import opened Scalars
  import Reflection
  import Literals

  datatype Request = Set(name: string, value: Reflection.Value) | Get(name: string) | Exit

  datatype Response = Ok | PropertyNotFound | Value(value: Reflection.Value) | ExitSuccessful

  // ---------------------------------------------------------------------
  // Client: one console line.

  /** What one line asks the client loop to do. */
  datatype Command =
    | Nothing                 // a blank line
    | Usage(message: string)  // reported locally, nothing is sent
    | Send(request: Request)  // send one request and wait for its response
    | ForceExit               // `exit!`: leave at once, nothing is sent

  /** The command dispatch of Client::run for one line. `round` is the
      decimal-to-f32 rounding used by the float parser. */
  function Interpret(line: string, round: string -> F32): (c: Command)
    ensures var w := Literals.Words(line);
            && (|w| == 0 <==> c == Nothing)
            && (c == ForceExit <==> |w| > 0 && w[0] == "exit!")
            && (c == Usage("Unknown command.") <==> |w| > 0 && w[0] !in {"set", "get", "exit", "exit!"})
            && (c.Send? <==> |w| > 0 && (w[0] == "exit" || (w[0] == "get" && |w| > 1)
                                         || (w[0] == "set" && |w| > 2 && Literals.ParseValue(Some(w[2]), round).Some?)))
            && (|w| > 0 && w[0] == "exit" ==> c == Send(Exit))
            && (|w| > 1 && w[0] == "get" ==> c == Send(Get(w[1])))
            && (|w| > 2 && w[0] == "set" && Literals.ParseValue(Some(w[2]), round).Some? ==>
                  c == Send(Set(w[1], Literals.ParseValue(Some(w[2]), round).value)))
            && (|w| > 1 && w[0] == "set" && Literals.ParseValue(if |w| > 2 then Some(w[2]) else None, round).None? ==>
                  c == Usage("No value provided."))
            && (|w| == 1 && (w[0] == "set" || w[0] == "get") ==> c == Usage("No property name provided."))
  {
    var w := Literals.Words(line);
    if |w| == 0 then Nothing
    else if w[0] == "set" then
      if |w| < 2 then Usage("No property name provided.")
      else
        match Literals.ParseValue(if |w| > 2 then Some(w[2]) else None, round)
        case Some(v) => Send(Set(w[1], v))
        case None => Usage("No value provided.")
    else if w[0] == "get" then
      if |w| < 2 then Usage("No property name provided.") else Send(Get(w[1]))
    else if w[0] == "exit" then Send(Exit)
    else if w[0] == "exit!" then ForceExit
    else Usage("Unknown command.")
  }

  /** What the bounded wait for a response yields. */
  datatype Reply = Received(response: Response) | TimedOut | Disconnected

  /** What the console shows after a line. */
  datatype Output = Silent | Message(text: string) | Show(value: Reflection.Value)

  /** Whether the loop goes on, and with what output. */
  datatype Step = Continue(output: Output) | Break

  /** The advice appended to every failed `exit`. */
  const ForceExitHint := "Use `exit!` to force exit."

  predicate EndsWith(text: string, suffix: string)
  {
    |text| >= |suffix| && text[|text| - |suffix|..] == suffix
  }

  /** The operator message for a liveness failure of the wait. */
  function WaitFailure(req: Request, reply: Reply): (m: string)
    requires !reply.Received?
    ensures req.Exit? ==> EndsWith(m, ForceExitHint)
  {
    var base := if reply.TimedOut? then "No response after 10 seconds." else "No response, disconnected from server.";
    if req.Exit? then
      var m := base + " " + ForceExitHint;
      assert m[|m| - |ForceExitHint|..] == ForceExitHint;
      m
    else base
  }

  /** The response handling of Client::run for a request that was sent. */
  function Conclude(req: Request, reply: Reply): (s: Step)
    ensures s == Break <==> req.Exit? && reply == Received(ExitSuccessful)
    ensures s == Continue(Silent) <==> req.Set? && reply == Received(Ok)
    ensures (s.Continue? && s.output.Show?) <==> req.Get? && reply.Received? && reply.response.Value?
    ensures s.Continue? && s.output.Show? ==> s.output.value == reply.response.value
    ensures !req.Exit? && reply == Received(PropertyNotFound) ==> s == Continue(Message("Property not found."))
    ensures !req.Exit? && reply == TimedOut ==> s == Continue(Message("No response after 10 seconds."))
    ensures !req.Exit? && reply == Disconnected ==> s == Continue(Message("No response, disconnected from server."))
    ensures req.Exit? && s != Break ==> s.Continue? && s.output.Message? && EndsWith(s.output.text, ForceExitHint)
  {
    match reply
    case TimedOut => Continue(Message(WaitFailure(req, reply)))
    case Disconnected => Continue(Message(WaitFailure(req, reply)))
    case Received(res) =>
      match req
      case Set(_, _) =>
        (match res
         case Ok => Continue(Silent)
         case PropertyNotFound => Continue(Message("Property not found."))
         case _ => Continue(Message("Unknown response.")))
      case Get(_) =>
        (match res
         case Value(v) => Continue(Show(v))
         case PropertyNotFound => Continue(Message("Property not found."))
         case _ => Continue(Message("Unknown response.")))
      case Exit =>
        (match res
         case ExitSuccessful => Break
         case _ =>
           var m := "Wrong response. " + ForceExitHint;
           assert m[|m| - |ForceExitHint|..] == ForceExitHint;
           Continue(Message(m)))
  }

  /** A line read from the console, or a failure of the line editor. */
  datatype Input = Line(text: string) | ReadlineError

  /** One iteration of Client::run: the requests it sends and the step it
      takes. `reply` is what waiting would yield, used only if a request is
      sent. */
  function ClientStep(input: Input, reply: Reply, round: string -> F32): (r: (seq<Request>, Step))
    ensures |r.0| <= 1
    ensures |r.0| == 1 <==> input.Line? && Interpret(input.text, round).Send?
    ensures |r.0| == 1 ==> r.0[0] == Interpret(input.text, round).request
    ensures r.1 == Break <==>
              || input == ReadlineError
              || Interpret(input.text, round) == ForceExit
              || (Interpret(input.text, round) == Send(Exit) && reply == Received(ExitSuccessful))
  {
    match input
    case ReadlineError => ([], Break)
    case Line(text) =>
      match Interpret(text, round)
      case Nothing => ([], Continue(Silent))
      case Usage(m) => ([], Continue(Message(m)))
      case ForceExit => ([], Break)
      case Send(req) => ([req], Conclude(req, reply))
  }

  // ---------------------------------------------------------------------
  // Channels.

  /** The request channel (client to server) and the response channel
      (server to client). */
  datatype Channels = Channels(requests: seq<Request>, responses: seq<Response>)

  /** create_repl: both channels start empty. */
  function CreateRepl(): (ch: Channels)
    ensures |ch.requests| == 0 && |ch.responses| == 0
  {
    Channels([], [])
  }

  function ClientSend(ch: Channels, req: Request): (r: Channels)
    ensures r.requests == ch.requests + [req] && r.responses == ch.responses
  {
    ch.(requests := ch.requests + [req])
  }

  /** The client's wait: the oldest response if one has arrived, a timeout
      otherwise (the server did not drain in time). */
  function ClientReceive(ch: Channels): (r: (Channels, Reply))
    ensures r.0.requests == ch.requests
    ensures |ch.responses| == 0 ==> r == (ch, TimedOut)
    ensures |ch.responses| > 0 ==> r.1 == Received(ch.responses[0]) && r.0.responses == ch.responses[1..]
  {
    if ch.responses == [] then (ch, TimedOut)
    else (ch.(responses := ch.responses[1..]), Received(ch.responses[0]))
  }

  // ---------------------------------------------------------------------
  // Server.

  /** A successful drain: the store after it, the responses in the order
      they are sent, and how often the host's quit was called. */
  datatype Served = Served(store: Reflection.Store, responses: seq<Response>, quits: nat)

  /** The conversion in a Set would panic: the name is bound to a field of
      another type than the value's. */
  predicate Panics(ps: Reflection.Properties, req: Request)
  {
    && req.Set?
    && Reflection.Find(ps, req.name).Some?
    && Reflection.ValueKind(req.value) != Reflection.Find(ps, req.name).value.kind
  }

  /** How many responses a request produces in the source: Exit sends
      ExitSuccessful once inside its arm and once more with the common send. */
  function ResponseCount(req: Request): nat
  {
    if req.Exit? then 2 else 1
  }

  /** The response `res` is a possible answer to `req`. */
  predicate Answers(req: Request, res: Response)
  {
    match req
    case Set(_, _) => res == Ok || res == PropertyNotFound
    case Get(_) => res.Value? || res == PropertyNotFound
    case Exit => res == ExitSuccessful
  }

  /** One request of Server::update. `None` is the panic of a mismatched
      Set. */
  function Serve(ps: Reflection.Properties, store: Reflection.Store, req: Request): (r: Option<Served>)
    requires Reflection.WellTyped(store, ps)
    ensures r.None? <==> Panics(ps, req)
    ensures r.Some? ==> Reflection.WellTyped(r.value.store, ps) && r.value.store.Keys == store.Keys
    ensures r.Some? ==> |r.value.responses| == ResponseCount(req)
    ensures r.Some? ==> forall i :: 0 <= i < |r.value.responses| ==> Answers(req, r.value.responses[i])
    ensures r.Some? ==> r.value.quits == (if req.Exit? then 1 else 0)
    ensures r.Some? && !req.Exit? && Reflection.Find(ps, req.name).None? ==>
              r.value == Served(store, [PropertyNotFound], 0)
    ensures r.Some? && req.Get? && Reflection.Find(ps, req.name).Some? ==>
              r.value == Served(store, [Value(Reflection.Get(store, Reflection.Find(ps, req.name).value))], 0)
    ensures r.Some? && req.Set? && Reflection.Find(ps, req.name).Some? ==>
              && r.value.responses == [Ok]
              && Reflection.Get(r.value.store, Reflection.Find(ps, req.name).value) == req.value
              && r.value.store == Reflection.Set(store, Reflection.Find(ps, req.name).value, req.value).value
    ensures r.Some? && req.Exit? ==> r.value == Served(store, [ExitSuccessful, ExitSuccessful], 1)
  {
    match req
    case Set(k, v) =>
      (match Reflection.Find(ps, k)
       case Some(p) =>
         assert Reflection.Bound(store, p);
         (match Reflection.Set(store, p, v)
          case Some(s) =>
            Reflection.SetKeepsWellTyped(store, ps, p, v);
            Some(Served(s, [Ok], 0))
          case None => None)
       case None => Some(Served(store, [PropertyNotFound], 0)))
    case Get(k) =>
      (match Reflection.Find(ps, k)
       case Some(p) =>
         assert Reflection.Bound(store, p);
         Some(Served(store, [Value(Reflection.Get(store, p))], 0))
       case None => Some(Served(store, [PropertyNotFound], 0)))
    case Exit => Some(Served(store, [ExitSuccessful, ExitSuccessful], 1))
  }

  function ExpectedResponses(reqs: seq<Request>): nat
  {
    if reqs == [] then 0 else ResponseCount(reqs[0]) + ExpectedResponses(reqs[1..])
  }

  function Exits(reqs: seq<Request>): nat
  {
    if reqs == [] then 0 else (if reqs[0].Exit? then 1 else 0) + Exits(reqs[1..])
  }

  /** Some request of the batch would panic the server. */
  predicate SomePanics(ps: Reflection.Properties, reqs: seq<Request>)
  {
    exists i :: 0 <= i < |reqs| && Panics(ps, reqs[i])
  }

  /** The drain loop of Server::update, against one snapshot `ps`: every
      request is handled in arrival order, including the ones after an Exit.
      A panic ends the whole batch. */
  function ServeAll(ps: Reflection.Properties, store: Reflection.Store, reqs: seq<Request>): (r: Option<Served>)
    requires Reflection.WellTyped(store, ps)
    ensures r.None? <==> SomePanics(ps, reqs)
    ensures r.Some? ==> Reflection.WellTyped(r.value.store, ps) && r.value.store.Keys == store.Keys
    ensures r.Some? ==> |r.value.responses| == ExpectedResponses(reqs)
    ensures r.Some? ==> r.value.quits == Exits(reqs)
    decreases |reqs|
  {
    if reqs == [] then Some(Served(store, [], 0))
    else
      match Serve(ps, store, reqs[0])
      case None => None
      case Some(first) =>
        var rest := ServeAll(ps, first.store, reqs[1..]);
        assert forall i :: 0 <= i < |reqs[1..]| ==> reqs[1..][i] == reqs[i + 1];
        Then(first, rest)
  }

  /** What serving `first` and then, if nothing panicked, `rest` amounts to. */
  function Then(first: Served, rest: Option<Served>): (r: Option<Served>)
    ensures r.Some? <==> rest.Some?
  {
    match rest
    case None => None
    case Some(more) => Some(Served(more.store, first.responses + more.responses, first.quits + more.quits))
  }

  /** Server::update: drains every queued request and appends the responses
      to the response channel. */
  function Update(ps: Reflection.Properties, ch: Channels, store: Reflection.Store): (r: Option<(Channels, Served)>)
    requires Reflection.WellTyped(store, ps)
    ensures r.None? <==> exists i :: 0 <= i < |ch.requests| && Panics(ps, ch.requests[i])
    ensures r.Some? ==> r.value.0.requests == []
    ensures r.Some? ==> r.value.0.responses == ch.responses + r.value.1.responses
    ensures r.Some? ==> |r.value.1.responses| == ExpectedResponses(ch.requests)
    ensures r.Some? ==> r.value.1.quits == Exits(ch.requests)
    ensures r.Some? ==> ServeAll(ps, store, ch.requests) == Some(r.value.1)
  {
    match ServeAll(ps, store, ch.requests)
    case None => None
    case Some(sv) => Some((Channels([], ch.responses + sv.responses), sv))
  }

  // ---------------------------------------------------------------------
  // Properties of the server.

  /** Splitting a batch: serving `a + b` is serving `a`, then `b` against
      the store `a` left, with the responses and quits of both in order. So
      a drain gives the same result however the queued requests are
      divided between ticks, as long as the snapshot is the same. */
  lemma {:induction false} ServeAllAppend(ps: Reflection.Properties, store: Reflection.Store, a: seq<Request>, b: seq<Request>)
    requires Reflection.WellTyped(store, ps)
    ensures ServeAll(ps, store, a + b)
              == match ServeAll(ps, store, a)
                 case None => None
                 case Some(x) => Then(x, ServeAll(ps, x.store, b))
    decreases |a|
  {
    if a == [] {
      assert a + b == b;
      assert ServeAll(ps, store, a) == Some(Served(store, [], 0));
      match ServeAll(ps, store, b)
      case None =>
      case Some(y) => assert [] + y.responses == y.responses;
    } else {
      assert (a + b)[0] == a[0] && (a + b)[1..] == a[1..] + b;
      match Serve(ps, store, a[0])
      case None =>
      case Some(first) =>
        ServeAllAppend(ps, first.store, a[1..], b);
        match ServeAll(ps, first.store, a[1..])
        case None =>
        case Some(x) =>
          ThenThen(first, x, ServeAll(ps, x.store, b));
    }
  }

  lemma ThenResponses(first: Served, rest: Option<Served>)
    requires rest.Some?
    ensures Then(first, rest).Some?
    ensures Then(first, rest).value.responses == first.responses + rest.value.responses
  {
  }

  lemma BlockOfFirst(ps: Reflection.Properties, store: Reflection.Store, a: seq<Request>, c: seq<Request>)
    requires Reflection.WellTyped(store, ps)
    requires ServeAll(ps, store, a + c).Some? && c != []
    ensures !Panics(ps, c[0]) && ServeAll(ps, store, a).Some?
    ensures var before := ServeAll(ps, store, a).value.store;
            var mine := Serve(ps, before, c[0]).value.responses;
            var rs := ServeAll(ps, store, a + c).value.responses;
            var k := ExpectedResponses(a);
            k + |mine| <= |rs| && rs[k..k + |mine|] == mine
  {
    ServeAllAppend(ps, store, a, c);
    var x := ServeAll(ps, store, a).value;
    ThenResponses(x, ServeAll(ps, x.store, c));
    FirstBlock(ps, x.store, c);
    var first := Serve(ps, x.store, c[0]).value;
    var rs := ServeAll(ps, store, a + c).value.responses;
    var ys := ServeAll(ps, x.store, c).value.responses;
    var zs := ServeAll(ps, first.store, c[1..]).value.responses;
    assert rs == x.responses + ys;
    assert ys == first.responses + zs;
    assert |x.responses| == ExpectedResponses(a);
    BlockAt(rs, x.responses, ys, zs, first.responses);
  }

  lemma FirstBlock(ps: Reflection.Properties, store: Reflection.Store, c: seq<Request>)
    requires Reflection.WellTyped(store, ps)
    requires ServeAll(ps, store, c).Some? && c != []
    ensures !Panics(ps, c[0])
    ensures var first := Serve(ps, store, c[0]).value;
            ServeAll(ps, first.store, c[1..]).Some?
            && ServeAll(ps, store, c).value.responses == first.responses + ServeAll(ps, first.store, c[1..]).value.responses
  {
    var first := Serve(ps, store, c[0]).value;
    ThenResponses(first, ServeAll(ps, first.store, c[1..]));
  }

  lemma SplitAt<T>(s: seq<T>, i: nat)
    requires i < |s|
    ensures s == s[..i] + s[i..] && s[i] == s[i..][0]
  {
  }

  lemma BlockAt<T>(rs: seq<T>, xs: seq<T>, ys: seq<T>, zs: seq<T>, mine: seq<T>)
    requires rs == xs + ys && ys == mine + zs
    ensures |xs| + |mine| <= |rs| && rs[|xs|..|xs| + |mine|] == mine
  {
    assert rs == xs + mine + zs;
  }

  lemma ThenThen(first: Served, x: Served, rest: Option<Served>)
    ensures Then(first, Then(x, rest)) == Then(Then(first, Some(x)).value, rest)
  {
    match rest
    case None =>
    case Some(y) =>
      assert first.responses + (x.responses + y.responses) == (first.responses + x.responses) + y.responses;
  }


  /** Responses come out in request order: the block that starts at offset
      ExpectedResponses(reqs[..i]) is exactly what Serve answers to `reqs[i]`
      against the store the earlier requests of the batch left behind. */
  lemma ServeAllAnswersInOrder(ps: Reflection.Properties, store: Reflection.Store, reqs: seq<Request>, i: nat)
    requires Reflection.WellTyped(store, ps)
    requires ServeAll(ps, store, reqs).Some? && i < |reqs|
    ensures !Panics(ps, reqs[i]) && ServeAll(ps, store, reqs[..i]).Some?
    ensures var before := ServeAll(ps, store, reqs[..i]).value.store;
            var mine := Serve(ps, before, reqs[i]).value.responses;
            var rs := ServeAll(ps, store, reqs).value.responses;
            var k := ExpectedResponses(reqs[..i]);
            k + |mine| <= |rs| && rs[k..k + |mine|] == mine
  {
    var a := reqs[..i];
    var c := reqs[i..];
    SplitAt(reqs, i);
    BlockOfFirst(ps, store, a, c);
    var before := ServeAll(ps, store, a).value.store;
    assert Serve(ps, before, reqs[i]) == Serve(ps, before, c[0]);
    assert ServeAll(ps, store, reqs) == ServeAll(ps, store, a + c);
  }

  /** A Set on a missing name answers PropertyNotFound and changes nothing;
      a Get on a missing name answers PropertyNotFound. */
  lemma MissingNameNotFound(ps: Reflection.Properties, store: Reflection.Store, name: string, v: Reflection.Value)
    requires Reflection.WellTyped(store, ps) && Reflection.Find(ps, name).None?
    ensures Serve(ps, store, Set(name, v)) == Some(Served(store, [PropertyNotFound], 0))
    ensures Serve(ps, store, Get(name)) == Some(Served(store, [PropertyNotFound], 0))
  {
  }

  /** One step of the drain loop: the first request is served, then the
      rest against the store it leaves. */
  lemma ServeAllCons(ps: Reflection.Properties, store: Reflection.Store, req: Request, rest: seq<Request>)
    requires Reflection.WellTyped(store, ps) && !Panics(ps, req)
    ensures Serve(ps, store, req).Some?
    ensures var first := Serve(ps, store, req).value;
            ServeAll(ps, store, [req] + rest)
              == Then(first, ServeAll(ps, first.store, rest))
  {
    assert ([req] + rest)[1..] == rest;
  }

  /** Within one batch a Get sees the value of an earlier Set on the same
      name, because one snapshot of live bindings serves the whole batch. */
  lemma SetThenGetInOneBatch(ps: Reflection.Properties, store: Reflection.Store, name: string, v: Reflection.Value)
    requires Reflection.WellTyped(store, ps) && Reflection.Find(ps, name).Some?
    requires Reflection.ValueKind(v) == Reflection.Find(ps, name).value.kind
    ensures ServeAll(ps, store, [Set(name, v), Get(name)]).Some?
    ensures ServeAll(ps, store, [Set(name, v), Get(name)]).value.responses == [Ok, Value(v)]
  {
    var p := Reflection.Find(ps, name).value;
    var first := Serve(ps, store, Set(name, v)).value;
    assert Reflection.Get(first.store, p) == v;
    var second := Serve(ps, first.store, Get(name)).value;
    ServeAllCons(ps, first.store, Get(name), []);
    assert [Get(name)] + [] == [Get(name)];
    assert ServeAll(ps, second.store, []) == Some(Served(second.store, [], 0));
    ServeAllCons(ps, store, Set(name, v), [Get(name)]);
    assert [Set(name, v)] + [Get(name)] == [Set(name, v), Get(name)];
  }

  /** An Exit calls quit once and answers ExitSuccessful twice; the requests
      queued after it are still served. */
  lemma ExitKeepsServing(ps: Reflection.Properties, store: Reflection.Store, rest: seq<Request>)
    requires Reflection.WellTyped(store, ps)
    ensures ServeAll(ps, store, [Exit] + rest)
         == match ServeAll(ps, store, rest)
            case None => None
            case Some(sv) => Some(Served(sv.store, [ExitSuccessful, ExitSuccessful] + sv.responses, sv.quits + 1))
  {
    ServeAllCons(ps, store, Exit, rest);
  }

  // ---------------------------------------------------------------------
  // Client and server together.

  /** No console line can set an i32 property: any `set` that is sent
      carries a Bool or a Float, and converting it into the i32 field
      panics the host. */
  lemma IntegerPropertyCannotBeSet(ps: Reflection.Properties, store: Reflection.Store, line: string, round: string -> F32)
    requires Reflection.WellTyped(store, ps)
    requires Interpret(line, round).Send? && Interpret(line, round).request.Set?
    requires var k := Interpret(line, round).request.name;
             Reflection.Find(ps, k).Some? && Reflection.Find(ps, k).value.kind == Reflection.I32Kind
    ensures Serve(ps, store, Interpret(line, round).request).None?
  {
    var w := Literals.Words(line);
    Literals.ParseValueNeverInteger(Some(w[2]), round);
  }

  /** "3.5" is a float literal and not a bool. */
  lemma ThreePointFiveIsFloat()
    ensures Literals.ParseBool("3.5").None? && Literals.IsFloatLiteral("3.5")
  {
    assert Literals.Unsigned("3.5") == "3.5";
    assert Literals.IndexOfEither("3.5", 'e', 'E') == 3;
    assert "3.5"[..3] == "3.5";
    assert Literals.IndexOf("3.5", '.') == 1;
    assert "3.5"[..1] == "3";
    assert "3.5"[2..] == "5";
  }

  /** The line `set x 3.5` is sent as a Set of the f32 "3.5" denotes. */
  lemma SetLine(round: string -> F32)
    ensures Interpret("set x 3.5", round) == Send(Set("x", Reflection.Float(round("3.5"))))
  {
    var ws := ["set", "x", "3.5"];
    assert Literals.IsWord("set") && Literals.IsWord("x") && Literals.IsWord("3.5");
    assert "set x 3.5" == Literals.Unwords(ws);
    Literals.WordsUnwords(ws);
    ThreePointFiveIsFloat();
  }

  /** The line `get x` is sent as a Get. */
  lemma GetLine(round: string -> F32)
    ensures Interpret("get x", round) == Send(Get("x"))
  {
    var ws := ["get", "x"];
    assert Literals.IsWord("get") && Literals.IsWord("x");
    assert "get x" == Literals.Unwords(ws);
    Literals.WordsUnwords(ws);
  }

  /** One request sent on fresh channels, one Server::update, one wait of
      the client: the reply is the first response the server gave to that
      request alone, and the store is the one it left. */
  function RoundTrip(ps: Reflection.Properties, store: Reflection.Store, req: Request): (r: (Reply, Reflection.Store))
    requires Reflection.WellTyped(store, ps) && !Panics(ps, req)
    ensures Serve(ps, store, req).Some?
    ensures var sv := Serve(ps, store, req).value;
            r == (Received(sv.responses[0]), sv.store) && Reflection.WellTyped(r.1, ps)
  {
    var ch1 := ClientSend(CreateRepl(), req);
    assert ch1.requests == [req] && ch1.requests[1..] == [];
    var first := Serve(ps, store, req).value;
    assert first.responses + [] == first.responses;
    assert ServeAll(ps, first.store, []) == Some(Served(first.store, [], 0));
    assert ServeAll(ps, store, [req]) == Some(first);
    var (ch2, sv) := Update(ps, ch1, store).value;
    (ClientReceive(ch2).1, sv.store)
  }

  /** Against a responsive server, a set of a value of the property's own
      kind succeeds silently, and a later get shows that value. */
  lemma SetThenGetRoundTrip(ps: Reflection.Properties, store: Reflection.Store, name: string, v: Reflection.Value)
    requires Reflection.WellTyped(store, ps) && Reflection.Find(ps, name).Some?
    requires Reflection.ValueKind(v) == Reflection.Find(ps, name).value.kind
    ensures !Panics(ps, Set(name, v))
    ensures Conclude(Set(name, v), RoundTrip(ps, store, Set(name, v)).0) == Continue(Silent)
    ensures Conclude(Get(name), RoundTrip(ps, RoundTrip(ps, store, Set(name, v)).1, Get(name)).0) == Continue(Show(v))
  {
    var p := Reflection.Find(ps, name).value;
    var s1 := RoundTrip(ps, store, Set(name, v)).1;
    assert Reflection.Get(s1, p) == v;
  }

  /** The console round trip of `set x 3.5` then `get x` against a responsive
      server, for `x` bound to an f32: both lines are sent as requests, the
      set succeeds silently and the get shows the f32 that "3.5" denotes. */
  lemma FloatPropertyRoundTrip(ps: Reflection.Properties, store: Reflection.Store, round: string -> F32)
    requires Reflection.WellTyped(store, ps)
    requires Reflection.Find(ps, "x").Some? && Reflection.Find(ps, "x").value.kind == Reflection.F32Kind
    ensures var v := Reflection.Float(round("3.5"));
            && Interpret("set x 3.5", round) == Send(Set("x", v))
            && Interpret("get x", round) == Send(Get("x"))
            && !Panics(ps, Set("x", v))
            && Conclude(Get("x"), RoundTrip(ps, RoundTrip(ps, store, Set("x", v)).1, Get("x")).0) == Continue(Show(v))
  {
    SetLine(round);
    GetLine(round);
    SetThenGetRoundTrip(ps, store, "x", Reflection.Float(round("3.5")));
  }

  /** After an `exit` round trip the second ExitSuccessful is still queued on
      the response channel, to be read by whatever waits next. */
  lemma ExitLeavesSecondResponse(ps: Reflection.Properties, store: Reflection.Store)
    requires Reflection.WellTyped(store, ps)
    ensures var ch1 := ClientSend(CreateRepl(), Exit);
            Update(ps, ch1, store).Some?
            && var (ch2, sv) := Update(ps, ch1, store).value;
               var (ch3, reply) := ClientReceive(ch2);
               sv.quits == 1 && Conclude(Exit, reply) == Break && ch3.responses == [ExitSuccessful]
  {
    var ch1 := ClientSend(CreateRepl(), Exit);
    assert ch1.requests == [Exit] + [];
    ExitKeepsServing(ps, store, []);
  }
}

=== FILE: scalars.dfy ===
/** Machine scalars shared by several components. */
module Scalars {

  /** An `f32`, kept as its IEEE-754 bit pattern. No floating-point arithmetic
      is modelled: the model only copies, compares and stores such values. */
  type F32 = bv32

  /** The bit patterns of 0.0 and 1.0. */
  const Zero: F32 := 0x0000_0000
  const One: F32 := 0x3F80_0000

  /** A 32-bit two's-complement integer (`i32`). */
  newtype I32 = x: int | -0x8000_0000 <= x < 0x8000_0000
}

=== FILE: time.dfy ===
/** The simulation clock of `time`: a clock advanced by ticks, and the
    updater that makes one tick per host iteration from the wall clock.
    `SystemTime` and `Duration` are natural numbers of nanoseconds, the
    former counted from the Unix epoch; the wall-clock reading is a
    parameter. */
module Time {

  type Instant = nat
  type Span = nat

  /** CREATION_TIME, the Unix epoch. */
  const Epoch: Instant := 0

  datatype Clock = Clock(time: Instant, delta: Span, systemTime: Instant, systemDelta: Span)

  datatype Tick = Tick(systemTime: Instant, delta: Span)

  /** Clock::new: simulated time starts at the epoch with no elapsed time;
      the system time is the reading `now`. */
  function NewClock(now: Instant): (c: Clock)
    ensures c.time == Epoch && c.delta == 0 && c.systemDelta == 0 && c.systemTime == now
  {
    Clock(Epoch, 0, now, 0)
  }

  /** Clock + Tick. The source unwraps `duration_since`, which fails when
      the tick's system time is earlier than the clock's. */
  function Add(c: Clock, t: Tick): (r: Clock)
    requires t.systemTime >= c.systemTime
    ensures r.time >= c.time && r.time - c.time == t.delta && r.delta == t.delta
    ensures r.systemTime == t.systemTime && r.systemTime - c.systemTime == r.systemDelta
  {
    Clock(c.time + t.delta, t.delta, t.systemTime, t.systemTime - c.systemTime)
  }

  /** Clock += Tick, field by field as the source writes it. */
  method AddAssign(c: Clock, t: Tick) returns (c': Clock)
    requires t.systemTime >= c.systemTime
    ensures c' == Add(c, t)
  {
    var systemDelta := t.systemTime - c.systemTime;
    var systemTime := t.systemTime;
    var time := c.time + t.delta;
    var delta := t.delta;
    c' := Clock(time, delta, systemTime, systemDelta);
  }

  datatype ClockUpdater = ClockUpdater(lastSystemTime: Instant)

  /** ClockUpdater::new: no reading yet, marked by the epoch. */
  function NewUpdater(): (u: ClockUpdater)
    ensures u.lastSystemTime == Epoch
  {
    ClockUpdater(Epoch)
  }

  /** ClockUpdater::update with the wall-clock reading `now`: the tick's
      delta is 0 on the first call and the time since the previous reading
      afterwards. */
  function UpdaterStep(u: ClockUpdater, now: Instant): (r: (ClockUpdater, Tick))
    requires u.lastSystemTime == Epoch || now >= u.lastSystemTime
    ensures r.0.lastSystemTime == now && r.1.systemTime == now
    ensures u.lastSystemTime == Epoch ==> r.1.delta == 0
    ensures u.lastSystemTime != Epoch ==> u.lastSystemTime + r.1.delta == now
  {
    var delta := if u.lastSystemTime == Epoch then 0 else now - u.lastSystemTime;
    (ClockUpdater(now), Tick(now, delta))
  }

  /** Readings that never go backwards and never equal the epoch. */
  predicate Readings(start: Instant, nows: seq<Instant>)
  {
    && (forall i :: 0 <= i < |nows| ==> nows[i] > Epoch)
    && (|nows| > 0 ==> start <= nows[0])
    && (forall i :: 0 < i < |nows| ==> nows[i - 1] <= nows[i])
  }

  /** A host loop: each reading makes a tick, which the clock receives. */
  function Drive(u: ClockUpdater, c: Clock, nows: seq<Instant>): (r: (ClockUpdater, Clock))
    requires Readings(c.systemTime, nows)
    requires u.lastSystemTime == Epoch || u.lastSystemTime == c.systemTime
    decreases |nows|
  {
    if nows == [] then (u, c)
    else
      var (u1, t) := UpdaterStep(u, nows[0]);
      Drive(u1, Add(c, t), nows[1..])
  }

  /** Once the updater has a reading, the ticks telescope: simulated time
      advances by exactly the wall-clock time between the first and the
      last reading, and never goes backwards. */
  lemma {:induction false} DriveTelescopes(u: ClockUpdater, c: Clock, nows: seq<Instant>)
    requires Readings(c.systemTime, nows)
    requires u.lastSystemTime != Epoch && u.lastSystemTime == c.systemTime
    ensures var (u', c') := Drive(u, c, nows);
            && c'.time >= c.time
            && c'.time + c.systemTime == c.time + c'.systemTime
            && c'.systemTime == (if nows == [] then c.systemTime else nows[|nows| - 1])
            && u'.lastSystemTime == c'.systemTime
    decreases |nows|
  {
    if nows != [] {
      var (u1, t) := UpdaterStep(u, nows[0]);
      var c1 := Add(c, t);
      assert Readings(c1.systemTime, nows[1..]) by {
        assert forall i :: 0 < i < |nows[1..]| ==> nows[1..][i - 1] == nows[i];
      }
      DriveTelescopes(u1, c1, nows[1..]);
    }
  }

  /** From a new updater and a new clock, simulated time after the readings
      `nows` is the wall-clock time from the first reading to the last. */
  lemma DriveFromStart(start: Instant, nows: seq<Instant>)
    requires Readings(start, nows) && |nows| > 0
    ensures var (_, c) := Drive(NewUpdater(), NewClock(start), nows);
            nows[0] + c.time == nows[|nows| - 1] && c.systemTime == nows[|nows| - 1]
  {
    var (u1, t) := UpdaterStep(NewUpdater(), nows[0]);
    var c1 := Add(NewClock(start), t);
    assert c1.time == 0 && c1.systemTime == nows[0];
    assert Readings(c1.systemTime, nows[1..]) by {
      assert forall i :: 0 < i < |nows[1..]| ==> nows[1..][i - 1] == nows[i];
    }
    DriveTelescopes(u1, c1, nows[1..]);
    if |nows| > 1 {
      assert nows[1..][|nows[1..]| - 1] == nows[|nows| - 1];
    }
  }
}

=== FILE: transport.dfy ===
/** The many-to-one and one-to-many event transport of `events::transport`.
    A channel is a FIFO queue; every live mailbox owns one. The whole set of
    live channels is a `World`, and every operation is a pure function on it. */
module Transport {

  type MailboxId = nat

  /** The receiving end of a channel. The name is only used in diagnostics. */
  datatype Mailbox = Mailbox(id: MailboxId, name: string)

  /** A cloneable sending handle bound to one mailbox. */
  datatype Address = Address(target: MailboxId, name: string)

  /** An insertion-ordered list of subscribers; duplicates are allowed. */
  datatype AddressBook = AddressBook(addresses: seq<Address>)

  /** The queue of every mailbox that has not been dropped, and the id the
      next channel will get. */
  datatype World<E> = World(queues: map<MailboxId, seq<E>>, next: MailboxId)

  /** Ids are handed out in increasing order, so `next` is always fresh. */
  ghost predicate Valid<E>(w: World<E>)
  {
    forall id :: id in w.queues ==> id < w.next
  }

  /** Mailbox::new: allocates a fresh, empty channel. */
  function NewMailbox<E>(w: World<E>, name: string): (r: (World<E>, Mailbox))
    requires Valid(w)
    ensures Valid(r.0)
    ensures r.1.id !in w.queues && r.1.name == name
    ensures r.0.queues == w.queues[r.1.id := []]
  {
    (World(w.queues[w.next := []], w.next + 1), Mailbox(w.next, name))
  }

  /** Mailbox::address: a new handle on the mailbox's own channel. */
  function AddressOf(m: Mailbox): (a: Address)
    ensures a.target == m.id && a.name == m.name
  {
    Address(m.id, m.name)
  }

  /** The mailbox behind an address has not been dropped. */
  predicate Reachable<E>(w: World<E>, a: Address)
  {
    a.target in w.queues
  }

  /** Dropping a mailbox drops the receiving end of its channel: every
      address of it stops being reachable, so a later send through one is
      fatal, while every other channel is kept as it is. */
  function DropMailbox<E>(w: World<E>, m: Mailbox): (r: World<E>)
    requires Valid(w)
    ensures Valid(r)
    ensures forall a :: Reachable(r, a) <==> Reachable(w, a) && a.target != m.id
    ensures forall id :: id in r.queues ==> id in w.queues && r.queues[id] == w.queues[id]
  {
    w.(queues := w.queues - {m.id})
  }

  /** Address::send appends one event to the target queue. Sending to a dropped
      mailbox panics in the source, so it is excluded here. */
  function Send<E>(w: World<E>, a: Address, e: E): (r: World<E>)
    requires Reachable(w, a)
    ensures r.next == w.next && r.queues.Keys == w.queues.Keys
    ensures r.queues[a.target] == w.queues[a.target] + [e]
    ensures forall id :: id in w.queues && id != a.target ==> r.queues[id] == w.queues[id]
  {
    w.(queues := w.queues[a.target := w.queues[a.target] + [e]])
  }

  /** Mailbox::read: drains the queue without blocking. */
  function Read<E>(w: World<E>, m: Mailbox): (r: (World<E>, seq<E>))
    requires m.id in w.queues
    ensures r.1 == w.queues[m.id]
    ensures r.0.next == w.next && r.0.queues.Keys == w.queues.Keys
    ensures r.0.queues[m.id] == []
    ensures forall id :: id in w.queues && id != m.id ==> r.0.queues[id] == w.queues[id]
  {
    (w.(queues := w.queues[m.id := []]), w.queues[m.id])
  }

  /** One producer sending `es` through `a`, one event after the other. */
  function SendAll<E>(w: World<E>, a: Address, es: seq<E>): (r: World<E>)
    requires Reachable(w, a)
    ensures r.next == w.next && r.queues.Keys == w.queues.Keys
    ensures r.queues[a.target] == w.queues[a.target] + es
    ensures forall id :: id in w.queues && id != a.target ==> r.queues[id] == w.queues[id]
    decreases |es|
  {
    if es == [] then w
    else
      var r := SendAll(Send(w, a, es[0]), a, es[1..]);
      assert [es[0]] + es[1..] == es;
      r
  }

  /** A log of sends, in the order they happen: each is an address and the
      event sent through it. */
  type Outbox<E> = seq<(Address, E)>

  /** The events of a send log that are addressed to mailbox `id`, in log order. */
  function EventsFor<E>(log: Outbox<E>, id: MailboxId): (r: seq<E>)
    ensures |r| <= |log|
  {
    if log == [] then []
    else (if log[0].0.target == id then [log[0].1] else []) + EventsFor(log[1..], id)
  }

  /** Every address of a send log is reachable. */
  predicate LogReachable<E>(w: World<E>, log: Outbox<E>)
  {
    forall i :: 0 <= i < |log| ==> Reachable(w, log[i].0)
  }

  /** Several producers interleaving their sends, as recorded in `log`. */
  function Interleave<E>(w: World<E>, log: Outbox<E>): (r: World<E>)
    requires LogReachable(w, log)
    ensures r.next == w.next && r.queues.Keys == w.queues.Keys
    decreases |log|
  {
    if log == [] then w
    else
      var w1 := Send(w, log[0].0, log[0].1);
      assert forall i :: 0 <= i < |log[1..]| ==> log[1..][i] == log[i + 1];
      Interleave(w1, log[1..])
  }

  /** Many-to-one delivery: each mailbox receives exactly the events addressed
      to it, in the order they were sent, whoever sent them. */
  lemma {:induction false} InterleaveDelivers<E>(w: World<E>, log: Outbox<E>, id: MailboxId)
    requires LogReachable(w, log) && id in w.queues
    ensures Interleave(w, log).queues[id] == w.queues[id] + EventsFor(log, id)
    decreases |log|
  {
    if log != [] {
      var w1 := Send(w, log[0].0, log[0].1);
      assert forall i :: 0 <= i < |log[1..]| ==> log[1..][i] == log[i + 1];
      InterleaveDelivers(w1, log[1..], id);
      if log[0].0.target == id {
        assert w1.queues[id] == w.queues[id] + [log[0].1];
      } else {
        assert w1.queues[id] == w.queues[id];
      }
    }
  }

  /** AddressBook::new */
  function NewBook(): (b: AddressBook)
    ensures |b.addresses| == 0
  {
    AddressBook([])
  }

  /** AddressBook::add appends, keeping every earlier subscription. */
  function AddTo(b: AddressBook, a: Address): (r: AddressBook)
    ensures |r.addresses| == |b.addresses| + 1
    ensures r.addresses[..|b.addresses|] == b.addresses
    ensures r.addresses[|b.addresses|] == a
  {
    AddressBook(b.addresses + [a])
  }

  /** How many subscriptions of `addrs` target mailbox `id`. */
  function Count(addrs: seq<Address>, id: MailboxId): (n: nat)
    ensures n <= |addrs|
  {
    if addrs == [] then 0
    else (if addrs[0].target == id then 1 else 0) + Count(addrs[1..], id)
  }

  /** `k` copies of `e`. */
  function Copies<E>(e: E, k: nat): (r: seq<E>)
    ensures |r| == k
    ensures forall i :: 0 <= i < k ==> r[i] == e
  {
    if k == 0 then [] else [e] + Copies(e, k - 1)
  }

  /** Every subscriber of a book is still reachable. */
  predicate Live<E>(w: World<E>, b: AddressBook)
  {
    forall i :: 0 <= i < |b.addresses| ==> Reachable(w, b.addresses[i])
  }

  /** AddressBook::send: a clone of `e` to every subscription, in
      subscription order. */
  function BookSend<E>(w: World<E>, b: AddressBook, e: E): (r: World<E>)
    requires Live(w, b)
    ensures r.next == w.next && r.queues.Keys == w.queues.Keys
    decreases |b.addresses|
  {
    if b.addresses == [] then w
    else
      var w1 := Send(w, b.addresses[0], e);
      assert forall i :: 0 <= i < |b.addresses[1..]| ==> b.addresses[1..][i] == b.addresses[i + 1];
      BookSend(w1, AddressBook(b.addresses[1..]), e)
  }

  /** A mailbox subscribed k times receives k copies; one not subscribed
      receives nothing, so an empty book changes nothing. */
  lemma {:induction false} BookSendDelivers<E>(w: World<E>, b: AddressBook, e: E, id: MailboxId)
    requires Live(w, b) && id in w.queues
    ensures BookSend(w, b, e).queues[id] == w.queues[id] + Copies(e, Count(b.addresses, id))
    decreases |b.addresses|
  {
    if b.addresses == [] {
      assert w.queues[id] + [] == w.queues[id];
    } else {
      var a := b.addresses[0];
      var w1 := Send(w, a, e);
      var rest := AddressBook(b.addresses[1..]);
      assert forall i :: 0 <= i < |rest.addresses| ==> rest.addresses[i] == b.addresses[i + 1];
      BookSendDelivers(w1, rest, e, id);
      if a.target == id {
        assert Copies(e, Count(b.addresses, id)) == [e] + Copies(e, Count(rest.addresses, id));
        assert w1.queues[id] == w.queues[id] + [e];
      } else {
        assert w1.queues[id] == w.queues[id];
      }
    }
  }

  /** The queues after draining a mailbox and sending `es` back into it hold
      exactly `es`: a read returns everything sent since the previous read,
      in send order, each event once. */
  lemma {:induction false} ReadReturnsSendsSinceLastRead<E>(w: World<E>, m: Mailbox, es: seq<E>)
    requires m.id in w.queues
    ensures var w1 := Read(w, m).0;
            var w2 := SendAll(w1, AddressOf(m), es);
            Read(w2, m).1 == es && Read(w2, m).0.queues[m.id] == []
  {
    var w1 := Read(w, m).0;
    assert w1.queues[m.id] == [];
    var w2 := SendAll(w1, AddressOf(m), es);
    assert w2.queues[m.id] == [] + es;
  }

  /** Reading a mailbox with nothing queued yields nothing and changes nothing. */
  lemma ReadEmpty<E>(w: World<E>, m: Mailbox)
    requires m.id in w.queues && w.queues[m.id] == []
    ensures Read(w, m) == (w, [])
  {
    assert w.queues[m.id := []] == w.queues;
  }
}

=== FILE: wrappers.dfy ===
/** The optional value used wherever the source returns `Option<T>`. */
module Wrappers {

  datatype Option<+T> = None | Some(value: T)
}
